=== FILE: README.md ===
# GuardUs dashboard logic in Dafny

GuardUs is a single-page dashboard for a livestock and perimeter monitoring product. It
shows collars, relays, towers and cameras on a schematic map, lists predator and intrusion
alerts, and lets an operator acknowledge alerts and maintain the hardware lists. All of its
data is synthetic and held in memory.

This project models the decision logic behind those screens as pure Dafny functions over
immutable records, and proves what each of them promises. The logic covered is:

- the RSSI, status and threat colour rules, and the dominant unacknowledged severity of a device;
- the nearest-rank quantile and the trailing moving average;
- the alert-detail queries: collar neighbours within 200 m with their "reactive" flag, and
  the cameras whose coverage radius reaches the focus device, each sorted stably by distance;
- the mini chart's generated series, bars, threshold line, delta overlay and spike markers;
- the map's projection, zoom buttons, range rings, marker colour and shape, RSSI halo and
  HLS feed classification;
- the list edits of the maintenance page, acknowledging an alert, the device and alert
  filters, and the dashboard figures.

Numbers are `real`. Timestamps are integer milliseconds. Strings are `seq<char>`.

Four things the source gets from the runtime are parameters of the model:

- the great-circle distance (`geo`);
- `Math.cos` of the centre latitude (`mpdLon`);
- `Math.sin` of a fraction of a turn (`sinTurn`);
- `Number.prototype.toFixed` and number-to-string conversion (`fixed1` and `num`).

Every `Math.random()` draw, the clock, the `prompt` answer and the chart's measured size
are inputs.

Modules, one per source file, plus shared helpers:

- `Types` (`types.ts`);
- `Signal` and `Stats` (`misc.ts`);
- `DataLab`, `MiniChart`, `MapView`, `Maintenance`, `App`, `DevicesPage`, `AlertsList` and `Dashboard`;
- helpers `Wrappers` (`Option`), `Seqs` (filter, count, map), `StableSort` (a stable insertion sort keyed on a real), `Reals` (facts about products and quotients) and `Text` (JavaScript `trim`, ASCII `toLowerCase`, `includes`, `join`).

Three behaviours of the code are easy to misread:

- The feed classifier is the regular expression `/\.m3u8(\?.*)?$/`. It accepts a query string after `.m3u8`, provided the query has no line break, so it is more than a test of the URL's suffix.
- "Toggle Online" turns an inactive device online. It does not only swap online and offline.
- `qtile` of an empty series reads past the array, and the delta overlay's x position `i / (minutes - 1)` divides 0 by 0 for a one-minute chart. The model returns `None` where the source produces `undefined` or `NaN`.

## Model

| member | source | states |
|---|---|---|
| Types.TypeOf | guard-us-innovations/src/types.ts:1-12 | an absent device type counts as a collar, a present one is returned as is |
| Types.DeviceTypeNamesRoundTrip | guard-us-innovations/src/types.ts:1-7 | the six type names are read back to the same type |
| Types.SeverityNamesRoundTrip | guard-us-innovations/src/types.ts:33 | the four severity names P0, P1, P2, INFO are read back to the same severity |
| Signal.RssiColor | guard-us-innovations/src/view/utils/misc.ts:22-26 | green iff rssi ≥ −65, amber iff −80 ≤ rssi < −65, red iff rssi < −80 |
| Signal.RssiRadius | guard-us-innovations/src/view/utils/misc.ts:27-29 | the halo radius is always 44, 32 or 22 |
| Signal.RssiRadiusAgreesWithColor | guard-us-innovations/src/view/utils/misc.ts:22-29 | radius 44/32/22 exactly on the green/amber/red buckets; two readings share a colour iff they share a radius |
| Signal.RssiRadiusMonotone | guard-us-innovations/src/view/utils/misc.ts:27-29 | a stronger signal never gets a smaller halo |
| Signal.StatusColor | guard-us-innovations/src/view/utils/misc.ts:30-36 | each of online, inactive, offline has its own colour, in both directions |
| Signal.ThreatColor | guard-us-innovations/src/view/utils/misc.ts:37-45 | a threat colour exists iff the severity is present and not INFO |
| Signal.ThreatColorsDistinct | guard-us-innovations/src/view/utils/misc.ts:37-45 | P0, P1 and P2 get pairwise different colours |
| Signal.P0ThreatMatchesOffline | guard-us-innovations/src/view/utils/misc.ts:35-39 | a P0 collar is drawn in the offline red |
| Signal.RankInjective | guard-us-innovations/src/view/utils/misc.ts:47 | the order P0 > P1 > P2 > INFO ranks no two severities equally |
| Signal.ScanSeveritySpec | guard-us-innovations/src/view/utils/misc.ts:48-53 | the left-to-right scan ends with the best pending severity seen, never below its start value |
| Signal.ActiveSeverityIsDominant | guard-us-innovations/src/view/utils/misc.ts:46-55 | the result is absent iff the device has no unacked alert; otherwise it is the severity of one of them and ranks at least as high as all of them |
| Signal.DominantUnique | guard-us-innovations/src/view/utils/misc.ts:46-55 | that characterisation determines the result uniquely |
| Signal.ActiveSeverityIgnoresIrrelevant | guard-us-innovations/src/view/utils/misc.ts:50 | inserting an acked alert or another device's alert anywhere leaves the result unchanged |
| Signal.ActiveSeverityExample | guard-us-innovations/src/view/utils/misc.ts:46-55 | with pending P2, acked P0 and pending P1 the result is P1 |
| Stats.Qtile | guard-us-innovations/src/view/utils/misc.ts:56-60 | defined iff the rank floor((n−1)q) is inside the array; the value is an element of the input |
| Stats.QtileDefined | guard-us-innovations/src/view/utils/misc.ts:56-60 | non-empty input and q in [0, 1] give a value |
| Stats.QtileIndexInRange | guard-us-innovations/src/view/utils/misc.ts:58 | for n ≥ 1 and q in [0, 1] the rank floor((n−1)q) lies in [0, n) |
| Stats.QtileOfSorted | guard-us-innovations/src/view/utils/misc.ts:57-59 | the value is the element at rank floor((n−1)q) of any ascending arrangement of the input |
| Stats.QtileZeroIsMin | guard-us-innovations/src/view/utils/misc.ts:56-60 | q = 0 gives the minimum |
| Stats.QtileOneIsMax | guard-us-innovations/src/view/utils/misc.ts:56-60 | q = 1 gives the maximum |
| Stats.QtilePermutationInvariant | guard-us-innovations/src/view/utils/misc.ts:57 | the result depends only on the multiset of values |
| Stats.QtileMonotone | guard-us-innovations/src/view/utils/misc.ts:58 | a larger q never selects a smaller value |
| Stats.QtileExample | guard-us-innovations/src/view/utils/misc.ts:56-60 | the 0.3-quantile of [5, 1, 3, 2, 4] is 2 |
| StableSort.SortBySorted | guard-us-innovations/src/view/utils/misc.ts:57 | the sort used for `qtile` and both alert-detail lists orders its output by key |
| StableSort.SortByStable | guard-us-innovations/src/view/pages/DataLab.tsx:126 | elements with equal keys keep their input order |
| StableSort.SortBySortedIsIdentity | guard-us-innovations/src/view/pages/DataLab.tsx:126 | an already ordered list is left as it is |
| StableSort.SortReals | guard-us-innovations/src/view/utils/misc.ts:57 | the numeric sort returns an ascending permutation of its input |
| Stats.Window | guard-us-innovations/src/view/utils/misc.ts:64-73 | the window of index i is non-empty, at most i+1 long and ends at xs[i] |
| Stats.ComputeMovAvg | guard-us-innovations/src/view/utils/misc.ts:61-77 | the nested loop returns the input for w ≤ 1, and otherwise the mean of xs[max(0, i−w+1)..i] at every i |
| Stats.MovAvgWithinWindow | guard-us-innovations/src/view/utils/misc.ts:61-77 | each average lies between the minimum and maximum of its window |
| Stats.MovAvgPreservesBounds | guard-us-innovations/src/view/utils/misc.ts:61-77 | a series inside [lo, hi] stays inside [lo, hi] |
| Stats.MovAvgFirst | guard-us-innovations/src/view/utils/misc.ts:61-77 | the first average equals the first sample |
| Stats.PairMean | guard-us-innovations/src/view/utils/misc.ts:67-74 | with width 2 each later average is the mean of a sample and its predecessor |
| Stats.MovAvgExample | guard-us-innovations/src/view/utils/misc.ts:61-77 | movavg([1, 2, 3, 4], 2) = [1, 1.5, 2.5, 3.5] |
| DataLab.FindDevice | guard-us-innovations/src/view/pages/DataLab.tsx:21 | none iff no device has the id; otherwise the first device with that id |
| DataLab.FocusDevice | guard-us-innovations/src/view/pages/DataLab.tsx:19-23 | the device of the opened alert, else the first device; none only for an empty list |
| DataLab.Reacts | guard-us-innovations/src/view/pages/DataLab.tsx:100-124 | true iff some alert of that device, acked or not, lies within 300 000 ms of t0 inclusive |
| DataLab.NeighboursExactly | guard-us-innovations/src/view/pages/DataLab.tsx:99-126 | a record is listed iff it describes a collar of the list other than the focus, at distance ≤ 200, with its reactive flag |
| DataLab.NeighboursExcludeFocusAndNonCollars | guard-us-innovations/src/view/pages/DataLab.tsx:102-107 | the focus device and non-collars never appear |
| DataLab.NeighboursOrdered | guard-us-innovations/src/view/pages/DataLab.tsx:126 | ascending distance, a permutation of the filtered records, equal distances in list order |
| DataLab.CamerasInRangeExactly | guard-us-innovations/src/view/pages/DataLab.tsx:143-153 | a camera is listed iff its distance is at most its own radius |
| DataLab.CamerasInRangeOrdered | guard-us-innovations/src/view/pages/DataLab.tsx:154 | ascending distance, a permutation of the covering cameras, stable on ties |
| DataLab.ReportIsNotPlaceholder | guard-us-innovations/src/view/pages/DataLab.tsx:127-134 | a report of one or more lines can never equal a placeholder text |
| DataLab.NeighbourReport | guard-us-innovations/src/view/pages/DataLab.tsx:97-134 | "No nearby devices." iff there is no focus device or no neighbour |
| DataLab.CameraReport | guard-us-innovations/src/view/pages/DataLab.tsx:141-162 | "No cameras within coverage." iff there is no focus device or no covering camera |
| DataLab.NoCamerasGivesPlaceholder | guard-us-innovations/src/view/pages/DataLab.tsx:142-156 | with an empty camera list the report is the placeholder |
| MiniChart.Clamp | guard-us-innovations/src/components/MiniChart.tsx:30 | the result lies in [lo, hi]; it is v when v does, hi when v is above and lo when v is below |
| MiniChart.GenAccelSeries | guard-us-innovations/src/components/MiniChart.tsx:15-34 | exactly max(0, m) samples, each in [0, 1.2]: the raw value when it is in range, 1.2 when it is above and 0 when it is below |
| MiniChart.AccelSeparatesAlerts | guard-us-innovations/src/components/MiniChart.tsx:22-31 | with draws in [0, 1) and a sine in [−1, 1] the clamp never fires; samples near an alert are ≥ 0.725, others ≤ 0.275 |
| MiniChart.RawRssiSeries | guard-us-innovations/src/components/MiniChart.tsx:41-52 | exactly max(0, m) raw samples |
| MiniChart.GenRssiSeries | guard-us-innovations/src/components/MiniChart.tsx:35-54 | exactly max(0, m) samples |
| MiniChart.RssiSeriesPairs | guard-us-innovations/src/components/MiniChart.tsx:53 | the series starts at the first raw value and then averages consecutive raw pairs |
| MiniChart.RssiSeriesBounds | guard-us-innovations/src/components/MiniChart.tsx:45-53 | with draws in [0, 1) every value stays within 9 dB of the base |
| MiniChart.MaxFrom | guard-us-innovations/src/components/MiniChart.tsx:91 | `Math.max(floor, ...xs)` is at least the floor and every element, and equals one of them |
| MiniChart.BarHeight | guard-us-innovations/src/components/MiniChart.tsx:97 | max(1, round(v / accMax · ih)): at least both, and equal to one of them |
| MiniChart.BarFitsChart | guard-us-innovations/src/components/MiniChart.tsx:91-97 | a non-negative sample's bar never exceeds the rounded inner height |
| MiniChart.ThresholdBottom | guard-us-innovations/src/components/MiniChart.tsx:104 | the threshold line has a position iff the series is non-empty |
| MiniChart.ThresholdInsideChart | guard-us-innovations/src/components/MiniChart.tsx:91-104 | for a non-negative series the line lies between 18 and 18 + ih |
| MiniChart.ChartArea | guard-us-innovations/src/components/MiniChart.tsx:85-90 | a zero measured size falls back to 600 × 160; the inner area is the size less the 6/6/6/18 margins |
| MiniChart.EffectiveWindow | guard-us-innovations/src/components/MiniChart.tsx:108 | the window is in [1, 5]; in-range widths are kept, smaller ones give 1, larger ones 5 |
| MiniChart.DeltasTelescope | guard-us-innovations/src/components/MiniChart.tsx:109 | summing the deltas up to i and adding rs[0] recovers rs[i] |
| MiniChart.DeltasShape | guard-us-innovations/src/components/MiniChart.tsx:109 | the first delta is 0 and every later sample is its predecessor plus its delta |
| MiniChart.SmoothedDeltas | guard-us-innovations/src/components/MiniChart.tsx:108-109 | one delta per sample of the series smoothed with the effective window: 0 first, then each smoothed value is its predecessor plus its delta |
| MiniChart.SmoothedDeltasBounded | guard-us-innovations/src/components/MiniChart.tsx:108-109 | a series inside [lo, hi] has smoothed deltas no larger than hi − lo |
| MiniChart.MaxAbs | guard-us-innovations/src/components/MiniChart.tsx:110 | max(4, abs of every delta): at least 4 and at least every abs(delta), and equal to 4 or to some abs(delta) |
| MiniChart.DeltaPointsInBand | guard-us-innovations/src/components/MiniChart.tsx:110-113 | every plotted delta lies in [top, top + ih] when ih ≥ 0 |
| MiniChart.PlotX | guard-us-innovations/src/components/MiniChart.tsx:112 | a position exists iff minutes ≠ 1, since the source divides by minutes − 1 |
| MiniChart.PlotXSpansWidth | guard-us-innovations/src/components/MiniChart.tsx:112 | the points run from left to left + iw in strictly increasing order |
| MiniChart.SpikeAt | guard-us-innovations/src/components/MiniChart.tsx:134-137 | a spike iff abs(d) ≥ threshold; bunching only for d > 0, flight for d ≤ 0 |
| MiniChart.SpikesFrom | guard-us-innovations/src/components/MiniChart.tsx:133-146 | markers lie in range, carry the label of their delta, and have strictly increasing indices |
| MiniChart.SpikesFromComplete | guard-us-innovations/src/components/MiniChart.tsx:133-146 | every spike at or after the start index gets a marker |
| MiniChart.SpikesExactly | guard-us-innovations/src/components/MiniChart.tsx:133-146 | index i is marked iff abs(deltas[i]) ≥ threshold |
| MiniChart.NoSpikesWithinNarrowBand | guard-us-innovations/src/components/MiniChart.tsx:108-146 | a series inside [lo, hi] gets no spike markers when the threshold exceeds hi − lo |
| MiniChart.SpikesExample | guard-us-innovations/src/components/MiniChart.tsx:133-146 | deltas [0, 6, −2, −7] with threshold 5 mark index 1 as bunching and 3 as flight |
| MapView.Scale | guard-us-innovations/src/components/Map.tsx:28-30 | 220 m span (300 − 24) px times the zoom; positive for positive zoom |
| MapView.MapHeight | guard-us-innovations/src/components/Map.tsx:36 | a measured non-zero height is used; an absent or zero height gives 420 |
| MapView.ProjectThenRecover | guard-us-innovations/src/components/Map.tsx:31-38 | projecting and then inverting gives back the coordinates |
| MapView.RecoverThenProject | guard-us-innovations/src/components/Map.tsx:31-38 | inverting and then projecting gives back the pixel |
| MapView.CentreIsMidMap | guard-us-innovations/src/components/Map.tsx:31-38 | the centre device maps to (300, h/2) |
| MapView.CentreOfUnmeasuredMap | guard-us-innovations/src/components/Map.tsx:31-38 | with no measured height the centre device is drawn at (300, 210) |
| MapView.ProjectionOrientation | guard-us-innovations/src/components/Map.tsx:31-38 | a larger latitude gives a strictly smaller top; a larger longitude a strictly larger left |
| MapView.RangeReachesMargin | guard-us-innovations/src/components/Map.tsx:28-35 | at zoom 1, 220 m east of the centre lands 24 px from the right edge |
| MapView.RingMatchesProjection | guard-us-innovations/src/components/Map.tsx:73-87 | a point r metres north of the centre lies on the r-metre ring |
| MapView.ZoomIn | guard-us-innovations/src/components/Map.tsx:61 | min(2.5, z · 1.2): never above either bound, and equal to one of them |
| MapView.ZoomOut | guard-us-innovations/src/components/Map.tsx:67 | max(0.6, z / 1.2): never below either bound, and equal to one of them |
| MapView.ZoomStaysInRange | guard-us-innovations/src/components/Map.tsx:59-70 | any sequence of presses keeps a zoom in [0.6, 2.5] there |
| MapView.ZoomFromInitial | guard-us-innovations/src/components/Map.tsx:22-70 | from the initial zoom 1 the zoom stays in [0.6, 2.5] |
| MapView.ZoomButtonsInverse | guard-us-innovations/src/components/Map.tsx:59-70 | away from the limits "+" and "−" undo each other |
| MapView.ShapeOf | guard-us-innovations/src/components/Map.tsx:126-139 | triangle iff tower, square iff relay, circle otherwise |
| MapView.MarkerColorPrecedence | guard-us-innovations/src/components/Map.tsx:105-111 | a collar with a pending P0/P1/P2 alert shows the threat colour of its dominant severity; non-collars and quiet collars show the status colour |
| MapView.HaloFor | guard-us-innovations/src/components/Map.tsx:114-125 | drawn iff RSSI is on and a reading exists; centred on the marker with size 2·rssiRadius and the RSSI colour |
| MapView.MarkerAnchor | guard-us-innovations/src/components/Map.tsx:126-138 | every marker is centred horizontally on its point; a pin is centred vertically, and a tower's triangle stands with its base on the point |
| MapView.LabelAnchor | guard-us-innovations/src/components/Map.tsx:139 | the label's anchor is up and to the right of the point |
| MapView.LabelBesideMarker | guard-us-innovations/src/components/Map.tsx:126-141 | the label starts at the right edge of the marker's box, for every shape, level with the top of a pin |
| MapView.HaloGrowsWithSignal | guard-us-innovations/src/components/Map.tsx:114-121 | a stronger reading never gets a smaller halo |
| MapView.HlsFromSpec | guard-us-innovations/src/components/Map.tsx:194 | the scan from position i succeeds iff the expression matches at some position ≥ i |
| MapView.IsHlsMatchesRegex | guard-us-innovations/src/components/Map.tsx:194 | the classifier accepts a URL iff `/\.m3u8(\?.*)?$/` matches it |
| MapView.HlsPlainEnding | guard-us-innovations/src/components/Map.tsx:194 | every URL ending in `.m3u8` is HLS |
| MapView.HlsQueryEnding | guard-us-innovations/src/components/Map.tsx:194 | every URL in which `.m3u8` is followed by `?` and a query without a line break is HLS |
| MapView.HlsRejectsMp4 | guard-us-innovations/src/components/Map.tsx:194 | "clip.mp4" is not |
| MapView.HlsRejectsBrokenQuery | guard-us-innovations/src/components/Map.tsx:194 | a line break in the query defeats the match |
| MapView.FeedViewFor | guard-us-innovations/src/components/Map.tsx:193-242 | no feed iff the URL is absent or empty; the HLS notice iff the expression matches; otherwise a video of that URL |
| MapView.ShowsLivePill | guard-us-innovations/src/components/Map.tsx:187 | the "Live" pill shows iff the viewer has a feed |
| Maintenance.NumberOr | guard-us-innovations/src/pages/Maintenance.tsx:132-180 | a parsed non-zero number is kept; NaN or 0 falls back to the default |
| Maintenance.ZeroFieldFallsBack | guard-us-innovations/src/pages/Maintenance.tsx:174-180 | a radius or RSSI of 0 becomes 150 or −70 |
| Maintenance.RanchOrDefault | guard-us-innovations/src/pages/Maintenance.tsx:55 | the trimmed ranch, or "North Pasture" when it is blank; never empty or padded |
| Maintenance.AddDevice | guard-us-innovations/src/pages/Maintenance.tsx:37-65 | on rejection nothing changes; otherwise one online device with battery 3.9 and RSSI −75 is prepended to the exact old list, its alias and id are the trimmed typed-or-generated names, its ranch is the trimmed ranch or North Pasture, and only alias and id are cleared |
| Maintenance.GeneratedNameNotBlank | guard-us-innovations/src/pages/Maintenance.tsx:39-43 | a generated `type-suffix` name never trims to empty |
| Maintenance.AddDeviceRejectsExactly | guard-us-innovations/src/pages/Maintenance.tsx:38-47 | adding fails iff a typed alias or id is whitespace only |
| Maintenance.AddDeviceKeepsTypedNames | guard-us-innovations/src/pages/Maintenance.tsx:38-43 | an unpadded typed alias and id are stored as typed |
| Maintenance.AddDeviceGeneratesNames | guard-us-innovations/src/pages/Maintenance.tsx:38-43 | a blank alias and id become `<type>-<suffix>`, trimmed, and the addition succeeds |
| Maintenance.AddDeviceDefaultsRanch | guard-us-innovations/src/pages/Maintenance.tsx:55 | the new device's ranch is North Pasture when the ranch input trims to nothing, and the trimmed input otherwise |
| Maintenance.RemoveDevice | guard-us-innovations/src/pages/Maintenance.tsx:243-245 | no remaining device has the removed id |
| Maintenance.RemoveDeviceExactly | guard-us-innovations/src/pages/Maintenance.tsx:243-245 | exactly the devices with another id remain, in order, each with as many copies as before |
| Maintenance.AddThenRemoveDevice | guard-us-innovations/src/pages/Maintenance.tsx:243-245 | removing the new device's id gives what removing it from the old list gives; when no older device has that id, the old list itself |
| Maintenance.Toggled | guard-us-innovations/src/pages/Maintenance.tsx:228-231 | offline iff the device was online; never inactive |
| Maintenance.ToggleOnline | guard-us-innovations/src/pages/Maintenance.tsx:222-235 | length kept; devices with another id unchanged; matching devices change status only |
| Maintenance.ToggleTwiceRestores | guard-us-innovations/src/pages/Maintenance.tsx:222-235 | toggling twice restores the list iff no toggled device was inactive |
| Maintenance.ToggleLeavesNoInactive | guard-us-innovations/src/pages/Maintenance.tsx:228-231 | after a toggle the matching devices are online or offline |
| Maintenance.AddCamera | guard-us-innovations/src/pages/Maintenance.tsx:67-84 | one camera `cam-<suffix>` is prepended to the exact old list with the form's values; name and feed inputs reset |
| Maintenance.AddCameraName | guard-us-innovations/src/pages/Maintenance.tsx:68 | a blank name becomes "Cam", any other the trimmed name |
| Maintenance.RemoveCamera | guard-us-innovations/src/pages/Maintenance.tsx:306 | no remaining camera has the removed id |
| Maintenance.RemoveCameraExactly | guard-us-innovations/src/pages/Maintenance.tsx:306 | exactly the cameras with another id remain, in order, each with as many copies as before |
| Maintenance.AddThenRemoveCamera | guard-us-innovations/src/pages/Maintenance.tsx:306 | removing the new camera's id gives what removing it from the old list gives; when no older camera has that id, the old list itself |
| Maintenance.SetFeed | guard-us-innovations/src/pages/Maintenance.tsx:289-298 | only the feed of matching cameras changes; a cancelled prompt stores "" |
| Maintenance.SetFeedLastWins | guard-us-innovations/src/pages/Maintenance.tsx:289-298 | two feed edits equal the second one alone |
| Maintenance.SetFeedAcceptDefault | guard-us-innovations/src/pages/Maintenance.tsx:289-293 | accepting the pre-filled URL leaves the camera as it was |
| Maintenance.FeedTag | guard-us-innovations/src/pages/Maintenance.tsx:279-283 | "set" iff the feed URL is present and non-empty, and "empty" otherwise |
| App.RoutesComplete | guard-us-innovations/src/App.tsx:14-23 | every route is in the list of six and the names tell them apart |
| App.OnHashChange | guard-us-innovations/src/App.tsx:35-41 | "#demo" opens the devices page; any other hash keeps the route |
| App.OnAck | guard-us-innovations/src/App.tsx:43-46 | length kept; an alert is acked afterwards iff it was already or has the id; no other field changes |
| App.OnAckIdempotent | guard-us-innovations/src/App.tsx:43-46 | acknowledging twice equals once |
| App.OnAckCommutes | guard-us-innovations/src/App.tsx:43-46 | two acknowledgements commute |
| App.AckLowersActiveCount | guard-us-innovations/src/App.tsx:43-46 | the active count drops by exactly the number of unacked alerts with that id |
| App.AckRemovesButton | guard-us-innovations/src/App.tsx:43-46 | after acknowledging, the row shows the Acked pill |
| App.AckKeepsReactions | guard-us-innovations/src/App.tsx:43-46 | acknowledging never changes the reactive flags of the alert detail |
| App.AckOfOtherAlertKeepsSeverity | guard-us-innovations/src/App.tsx:43-46 | acknowledging an id none of a device's pending alerts carries keeps its dominant severity |
| App.ScreenFor | guard-us-innovations/src/App.tsx:48-87 | each of the six routes shows its own page, in both directions; every page but audit gets the shell's devices, the dashboard, alerts and maintenance pages get its cameras, and the dashboard, alerts and data-lab pages get its alerts; the data-lab page gets no cameras and an unimplemented acknowledge handler |
| App.ScreenShowsRoute | guard-us-innovations/src/App.tsx:48-87 | the page shown for a route belongs to that route, so different routes show different pages |
| DevicesPage.Rows | guard-us-innovations/src/pages/Devices.tsx:13-24 | every row passes the type, status and search filters |
| DevicesPage.RowsExactly | guard-us-innovations/src/pages/Devices.tsx:15-22 | a device is listed iff it passes all three, with all its copies; the rows keep list order |
| DevicesPage.RowsUnfiltered | guard-us-innovations/src/pages/Devices.tsx:15-22 | all/all/"" lists every device unchanged |
| DevicesPage.SearchIgnoresCase | guard-us-innovations/src/pages/Devices.tsx:18-19 | a query and its lower-cased form list the same rows |
| DevicesPage.SearchFindsId | guard-us-innovations/src/pages/Devices.tsx:18-20 | searching for a device's id, in any case, keeps it listed |
| DevicesPage.TypeFilterNarrows | guard-us-innovations/src/pages/Devices.tsx:16 | a type filter keeps exactly the unfiltered rows of that type, absent type as collar |
| AlertsList.Visible | guard-us-innovations/src/view/components/AlertsList.tsx:21-25 | every visible alert passes the severity and unacked filters |
| AlertsList.VisibleExactly | guard-us-innovations/src/view/components/AlertsList.tsx:21-25 | an alert is visible iff it passes both, with all its copies; visible alerts keep list order |
| AlertsList.VisibleDefaultsShowAll | guard-us-innovations/src/view/components/AlertsList.tsx:18-25 | with "all" and not only-unacked every alert is visible |
| AlertsList.VisibleBySeverity | guard-us-innovations/src/view/components/AlertsList.tsx:23 | a severity name keeps only that severity; an unknown name shows nothing |
| AlertsList.VisibleIdempotent | guard-us-innovations/src/view/components/AlertsList.tsx:21-25 | filtering the visible list again changes nothing |
| AlertsList.RowActionFor | guard-us-innovations/src/view/components/AlertsList.tsx:39-51 | an Ack button, for the row's own id, iff the alert is unacked |
| AlertsList.EmptyNotice | guard-us-innovations/src/view/components/AlertsList.tsx:54-58 | "No alerts." iff nothing is visible |
| AlertsList.OnlyUnackedRowsOfferAck | guard-us-innovations/src/view/components/AlertsList.tsx:21-51 | with only-unacked on, every visible row offers Ack |
| Dashboard.Lag | guard-us-innovations/src/view/pages/Dashboard.tsx:23 | an integer in [1, 5] for any draw in [0, 1) |
| Dashboard.LagCoversRange | guard-us-innovations/src/view/pages/Dashboard.tsx:23 | every lag from 1 to 5 is produced by some draw |
| Dashboard.ComputeKpis | guard-us-innovations/src/view/pages/Dashboard.tsx:20-23 | the tiles are the numbers of online devices, of other devices and of unacked alerts; online plus offline/inactive is the device count; the lag is 1 to 5 |
| Dashboard.CountZeroIff | guard-us-innovations/src/view/pages/Dashboard.tsx:20-22 | a count is zero iff no element qualifies |
| Dashboard.KpisZeroMeaning | guard-us-innovations/src/view/pages/Dashboard.tsx:21-22 | no offline/inactive iff all devices are online; no active alerts iff all are acked |
| Dashboard.KpisCountEachRecord | guard-us-innovations/src/view/pages/Dashboard.tsx:20-22 | one more device adds one to online or to offline/inactive by its status; one more alert adds one to active alerts iff unacked |
| Dashboard.KpisOfNothing | guard-us-innovations/src/view/pages/Dashboard.tsx:20-22 | with no devices and no alerts every count is zero |
| Dashboard.Center | guard-us-innovations/src/view/pages/Dashboard.tsx:24-32 | the first device, or with none a synthetic online "center" at (0, 0) |
| Text.Trim | guard-us-innovations/src/pages/Maintenance.tsx:40-43 | the result is a contiguous slice of the input with no whitespace at either end, and everything cut off is whitespace |
| Text.ToLower | guard-us-innovations/src/pages/Devices.tsx:18-19 | same length; each character is lowered on its own |
| Stats.MovAvg | guard-us-innovations/src/view/utils/misc.ts:61-77 | one average per sample |
| MiniChart.Deltas | guard-us-innovations/src/components/MiniChart.tsx:109 | one delta per sample |
| Text.TrimEmptyIffBlank | guard-us-innovations/src/pages/Maintenance.tsx:38-44 | an entry trims to empty iff it is whitespace only |
| Text.TrimIdempotent | guard-us-innovations/src/pages/Maintenance.tsx:38-43 | trimming a trimmed entry changes nothing |
| Text.Includes | guard-us-innovations/src/pages/Devices.tsx:19 | true iff the query occurs at some position of the text |

## Left out

- Great-circle distance (`haversine`) and `metersPerDeg`'s cosine are trigonometry on IEEE doubles. They are parameters: `geo` for the distance, `mpdLon` for metres per degree of longitude. Only the constant 111 132 m per degree of latitude is modelled.
- The `Math.random()` stream is not modelled. Each sample's draws are an input record, and the tests for those draws assume values in [0, 1). This also covers the lag and the id suffixes. In the source, the lift and sign draws are taken only when an alert is near; the model gives every sample its draws up front.
- `Date.now()` and `new Date(ts).getTime()` are not modelled. The clock is the parameter `now`, and alert times are milliseconds already.
- `formatTime`, `toFixed` and number-to-string conversion are locale and IEEE formatting. They are the parameters `fixed1` and `num`. The report's line text around them is modelled; the chart's SVG path string and spike titles are not.
- The following are React and DOM plumbing and are not modelled: hooks, the chart's DOM construction beyond the numbers above, the map's toolbar checkboxes, and the camera label `(rssi ?? '—') dBm`.
- Dialogs (`prompt`, `alert`) are not modelled. The prompt's answer is an input (`None` for cancel), and the alert is the `error` field of an add.
- The `hashchange` listener's subscription is not modelled; only the handler's effect is.
- Video and HLS playback, and the camera viewer's note text, are not modelled.
- `Nav.tsx`, `TopBar.tsx` and `Audit.tsx` are static markup without logic.
- `src/pages/DataLab` and `src/pages/Alerts`, which `App.tsx` imports, are not part of this model. The alert-detail logic modelled is that of `view/pages/DataLab.tsx`, and `App.ScreenFor` only records which data the shell passes to each page.
- Maintenance.NumberOr: parsing the text with `Number` or `parseInt` is not modelled, only the fallback applied to the parsed value. `parseInt` also truncates fractions.
- Stats.MovAvg: the window width is an integer. The source's callers only pass 2 and a clamped integer; a fractional width is not modelled.
- Stats.MovAvg: its own contract states only the length. The value at each index is stated by `Stats.ComputeMovAvg`, and its bounds by `Stats.MovAvgWithinWindow`.
- MiniChart.Deltas: its own contract states only the length. The differences themselves are stated by `MiniChart.DeltasShape` and `MiniChart.DeltasTelescope`.
- MiniChart.RawRssiSeries: its own contract states only the length. The range of its values is stated by `MiniChart.RssiSeriesBounds`.
- MiniChart.GenRssiSeries: its own contract states only the length. Its values are stated by `MiniChart.RssiSeriesPairs` and `MiniChart.RssiSeriesBounds`.
- Text.ToLower: only ASCII letters are lowered. Case mapping for the rest of Unicode (`toLowerCase`) is not modelled.
- NaN, infinities and floating-point rounding are not modelled. Arithmetic is exact. The two places where the source produces NaN or `undefined` are `None`: `qtile` outside the array, and `PlotX` for a one-minute chart.
- The source does not enforce unique `deviceId`s within a list, and the model does not assume it: toggles and removals act on every device with the id.
- Types.ConfidenceInRange: the `0..1` range noted beside an alert's `confidence` field in `types.ts` is stated as a predicate only. The source does not enforce it and no logic depends on it.

=== FILE: alertslist.dfy ===
/**
 * The alert list component: which alerts are visible under the severity and
 * "only unacknowledged" filters, and which rows offer an Ack button.
 */
module AlertsList {
  import opened Wrappers
  import opened Types
  import opened Seqs

  const AllSeverities: string := "all"
  const NoAlertsMessage: string := "No alerts."

  /** An alert passes the filters: severity `all` or equal to its name, and unacked if required. */
  predicate Shown(a: Alert, filterSeverity: string, onlyUnacked: bool) {
    (filterSeverity == AllSeverities || SeverityName(a.severity) == filterSeverity) && (!onlyUnacked || !a.acked)
  }

  function ShownWith(filterSeverity: string, onlyUnacked: bool): Alert -> bool {
    (a: Alert) => Shown(a, filterSeverity, onlyUnacked)
  }

  /** The visible alerts, in list order. */
  function Visible(alerts: seq<Alert>, filterSeverity: string, onlyUnacked: bool): (r: seq<Alert>)
    ensures |r| <= |alerts|
    ensures forall i :: 0 <= i < |r| ==> Shown(r[i], filterSeverity, onlyUnacked)
  {
    Filter(alerts, ShownWith(filterSeverity, onlyUnacked))
  }

  lemma VisibleExactly(alerts: seq<Alert>, filterSeverity: string, onlyUnacked: bool, a: Alert)
    ensures a in Visible(alerts, filterSeverity, onlyUnacked) <==> a in alerts && Shown(a, filterSeverity, onlyUnacked)
    ensures IsSubsequence(Visible(alerts, filterSeverity, onlyUnacked), alerts)
    ensures multiset(Visible(alerts, filterSeverity, onlyUnacked))[a] ==
              if Shown(a, filterSeverity, onlyUnacked) then multiset(alerts)[a] else 0
  {
    FilterMultiplicity(alerts, ShownWith(filterSeverity, onlyUnacked), a);
    FilterMembership(alerts, ShownWith(filterSeverity, onlyUnacked), a);
    FilterIsSubsequence(alerts, ShownWith(filterSeverity, onlyUnacked));
  }

  /** With the defaults (`all`, not only unacked) every alert is listed. */
  lemma VisibleDefaultsShowAll(alerts: seq<Alert>)
    ensures Visible(alerts, AllSeverities, false) == alerts
  {
    FilterAll(alerts, ShownWith(AllSeverities, false));
  }

  /** A severity filter selects exactly that severity; an unknown name selects nothing. */
  lemma VisibleBySeverity(alerts: seq<Alert>, filterSeverity: string, onlyUnacked: bool)
    requires filterSeverity != AllSeverities
    ensures ParseSeverity(filterSeverity).None? ==> Visible(alerts, filterSeverity, onlyUnacked) == []
    ensures ParseSeverity(filterSeverity).Some? ==>
      var r := Visible(alerts, filterSeverity, onlyUnacked);
      forall i :: 0 <= i < |r| ==> r[i].severity == ParseSeverity(filterSeverity).value
  {
    var r := Visible(alerts, filterSeverity, onlyUnacked);
    forall i | 0 <= i < |r|
      ensures ParseSeverity(filterSeverity) == Some(r[i].severity)
    {
      SeverityNamesRoundTrip(r[i].severity);
    }
    if |r| > 0 {
      assert ParseSeverity(filterSeverity) == Some(r[0].severity);
    }
  }

  /** Filtering twice with the same settings changes nothing more. */
  lemma VisibleIdempotent(alerts: seq<Alert>, filterSeverity: string, onlyUnacked: bool)
    ensures Visible(Visible(alerts, filterSeverity, onlyUnacked), filterSeverity, onlyUnacked)
            == Visible(alerts, filterSeverity, onlyUnacked)
  {
    FilterIdempotent(alerts, ShownWith(filterSeverity, onlyUnacked));
  }

  datatype RowAction = AckButton(alertId: string) | AckedPill

  /** A row offers "Ack" (for its own id) exactly while the alert is unacknowledged. */
  function RowActionFor(a: Alert): (act: RowAction)
    ensures act.AckButton? <==> !a.acked
    ensures act.AckButton? ==> act.alertId == a.id
  {
    if a.acked then AckedPill else AckButton(a.id)
  }

  /** "No alerts." appears exactly when nothing is visible. */
  function EmptyNotice(visible: seq<Alert>): (m: Option<string>)
    ensures m.Some? <==> |visible| == 0
    ensures m.Some? ==> m.value == NoAlertsMessage
  {
    if |visible| == 0 then Some(NoAlertsMessage) else None
  }

  /** With "only unacked" set, no visible row shows the Acked pill. */
  lemma OnlyUnackedRowsOfferAck(alerts: seq<Alert>, filterSeverity: string, i: int)
    requires 0 <= i < |Visible(alerts, filterSeverity, true)|
    ensures RowActionFor(Visible(alerts, filterSeverity, true)[i]).AckButton?
  {
  }
}

=== FILE: app.dfy ===
/**
 * The application shell: the six routes, the `#demo` shortcut, acknowledging an alert,
 * and what each route shows with which data.
 */
module App {
  import opened Wrappers
  import opened Types
  import opened Seqs
  import opened Signal
  import opened DataLab
  import opened Dashboard
  import opened AlertsList

  datatype Route = DashboardRoute | DevicesRoute | AlertsRoute | DataLabRoute | AuditRoute | MaintRoute

  /** The routes in navigation order. */
  const Routes: seq<Route> := [DashboardRoute, DevicesRoute, AlertsRoute, DataLabRoute, AuditRoute, MaintRoute]

  const InitialRoute: Route := DashboardRoute

  function RouteName(r: Route): string {
    match r
    case DashboardRoute => "dashboard"
    case DevicesRoute => "devices"
    case AlertsRoute => "alerts"
    case DataLabRoute => "datalab"
    case AuditRoute => "audit"
    case MaintRoute => "maint"
  }

  /** Every route appears once in the list, and the names tell them apart. */
  lemma RoutesComplete(r: Route, s: Route)
    ensures r in Routes
    ensures RouteName(r) == RouteName(s) ==> r == s
  {
  }

  const DemoHash: string := "#demo"

  /** The hash-change handler: `#demo` opens the devices page; any other hash leaves the route alone. */
  function OnHashChange(current: Route, hash: string): (r: Route)
    ensures hash == DemoHash ==> r == DevicesRoute
    ensures hash != DemoHash ==> r == current
  {
    if hash == DemoHash then DevicesRoute else current
  }

  /** `onAck(id)`: every alert with that id becomes acknowledged; nothing else changes. */
  function OnAck(alerts: seq<Alert>, id: string): (r: seq<Alert>)
    ensures |r| == |alerts|
    ensures forall i :: 0 <= i < |r| ==> (r[i].acked <==> alerts[i].acked || alerts[i].id == id)
    ensures forall i :: 0 <= i < |r| ==> r[i].(acked := alerts[i].acked) == alerts[i]
  {
    seq(|alerts|, i requires 0 <= i < |alerts| =>
      if alerts[i].id == id then alerts[i].(acked := true) else alerts[i])
  }

  /** Acknowledging the same id twice is the same as once. */
  lemma OnAckIdempotent(alerts: seq<Alert>, id: string)
    ensures OnAck(OnAck(alerts, id), id) == OnAck(alerts, id)
  {
  }

  /** The order of two acknowledgements does not matter. */
  lemma OnAckCommutes(alerts: seq<Alert>, a: string, b: string)
    ensures OnAck(OnAck(alerts, a), b) == OnAck(OnAck(alerts, b), a)
  {
    var x := OnAck(OnAck(alerts, a), b);
    var y := OnAck(OnAck(alerts, b), a);
    assert forall i :: 0 <= i < |alerts| ==> x[i] == y[i];
  }

  function UnackedWithId(id: string): Alert -> bool {
    (a: Alert) => !a.acked && a.id == id
  }

  /** Acknowledging drops the "Active Alerts" figure by the number of pending alerts with that id. */
  lemma {:induction false} AckLowersActiveCount(alerts: seq<Alert>, id: string)
    ensures Count(OnAck(alerts, id), IsUnacked()) + Count(alerts, UnackedWithId(id)) == Count(alerts, IsUnacked())
    decreases |alerts|
  {
    if |alerts| > 0 {
      var a, rest := alerts[0], alerts[1..];
      var a' := OnAck(alerts, id)[0];
      var u, w := IsUnacked(), UnackedWithId(id);
      assert Count(OnAck(alerts, id), u) == (if u(a') then 1 else 0) + Count(OnAck(rest, id), u) by {
        OnAckCons(alerts, id);
        CountCons(a', OnAck(rest, id), u);
      }
      assert alerts == [a] + rest;
      CountCons(a, rest, w);
      CountCons(a, rest, u);
      AckLowersActiveCount(rest, id);
      assert a'.acked <==> a.acked || a.id == id;
    }
  }

  lemma OnAckCons(alerts: seq<Alert>, id: string)
    requires |alerts| > 0
    ensures OnAck(alerts, id) == [OnAck(alerts, id)[0]] + OnAck(alerts[1..], id)
  {
    var r := OnAck(alerts, id);
    var t := OnAck(alerts[1..], id);
    assert forall i :: 1 <= i < |r| ==> r[i] == t[i - 1];
  }

  /** After acknowledging an alert its row shows the Acked pill instead of the button. */
  lemma AckRemovesButton(alerts: seq<Alert>, i: int)
    requires 0 <= i < |alerts|
    ensures RowActionFor(OnAck(alerts, alerts[i].id)[i]) == AckedPill
  {
  }

  /** Acknowledging never changes which devices count as reacting in the data lab. */
  lemma AckKeepsReactions(alerts: seq<Alert>, id: string, device: string, t0: int)
    ensures Reacts(device, OnAck(alerts, id), t0) == Reacts(device, alerts, t0)
  {
    var r := OnAck(alerts, id);
    assert forall i :: 0 <= i < |alerts| ==> r[i].deviceId == alerts[i].deviceId && r[i].ts == alerts[i].ts;
  }

  /**
   * Acknowledging an alert id that none of a device's pending alerts carries leaves the
   * device's dominant severity, and so its marker colour, as it was.
   */
  lemma AckOfOtherAlertKeepsSeverity(alerts: seq<Alert>, id: string, device: string)
    requires forall i :: 0 <= i < |alerts| && Pending(alerts[i], device) ==> alerts[i].id != id
    ensures ActiveSeverityFor(device, OnAck(alerts, id)) == ActiveSeverityFor(device, alerts)
  {
    var r := OnAck(alerts, id);
    assert forall i :: 0 <= i < |alerts| ==> (Pending(r[i], device) <==> Pending(alerts[i], device));
    assert forall i :: 0 <= i < |alerts| ==> r[i].severity == alerts[i].severity;
    ActiveSeverityIsDominant(device, alerts);
    ActiveSeverityIsDominant(device, r);
    var s := ActiveSeverityFor(device, alerts);
    if s.Some? {
      var j :| 0 <= j < |alerts| && Pending(alerts[j], device) && alerts[j].severity == s.value;
      assert Pending(r[j], device);
    }
    DominantUnique(device, r, ActiveSeverityFor(device, r), s);
  }

  /** What the data lab's acknowledge handler does: the shell passes one that is not implemented. */
  datatype AckHandler = AppAck | NotImplemented

  datatype Screen =
    | DashboardScreen(devices: seq<Device>, cameras: seq<Camera>, alerts: seq<Alert>)
    | DevicesScreen(devices: seq<Device>)
    | AlertsScreen(devices: seq<Device>, cameras: seq<Camera>, alerts: seq<Alert>)
    | DataLabScreen(devices: seq<Device>, alerts: seq<Alert>, cameras: seq<Camera>, ack: AckHandler)
    | AuditScreen
    | MaintenanceScreen(devices: seq<Device>, cameras: seq<Camera>)

  /** The page shown for a route, with the state it is given. */
  function ScreenFor(route: Route, devices: seq<Device>, cameras: seq<Camera>, alerts: seq<Alert>): (s: Screen)
    ensures s.DashboardScreen? <==> route == DashboardRoute
    ensures s.DevicesScreen? <==> route == DevicesRoute
    ensures s.AlertsScreen? <==> route == AlertsRoute
    ensures s.DataLabScreen? <==> route == DataLabRoute
    ensures s.AuditScreen? <==> route == AuditRoute
    ensures s.MaintenanceScreen? <==> route == MaintRoute
    ensures !s.AuditScreen? ==> s.devices == devices
    ensures s.DashboardScreen? || s.AlertsScreen? || s.MaintenanceScreen? ==> s.cameras == cameras
    ensures s.DashboardScreen? || s.AlertsScreen? ==> s.alerts == alerts
    ensures s.DataLabScreen? ==> s.cameras == [] && s.ack == NotImplemented && s.alerts == alerts
  {
    match route
    case DevicesRoute => DevicesScreen(devices)
    case AlertsRoute => AlertsScreen(devices, cameras, alerts)
    case DataLabRoute => DataLabScreen(devices, alerts, [], NotImplemented)
    case AuditRoute => AuditScreen
    case MaintRoute => MaintenanceScreen(devices, cameras)
    case DashboardRoute => DashboardScreen(devices, cameras, alerts)
  }

  /** The route whose page a screen is: the navigation entry that is highlighted for it. */
  function PageRoute(s: Screen): Route {
    match s
    case DashboardScreen(_, _, _) => DashboardRoute
    case DevicesScreen(_) => DevicesRoute
    case AlertsScreen(_, _, _) => AlertsRoute
    case DataLabScreen(_, _, _, _) => DataLabRoute
    case AuditScreen => AuditRoute
    case MaintenanceScreen(_, _) => MaintRoute
  }

  /** Every route shows its own page, and different routes show different pages. */
  lemma ScreenShowsRoute(route: Route, other: Route, devices: seq<Device>, cameras: seq<Camera>, alerts: seq<Alert>)
    ensures PageRoute(ScreenFor(route, devices, cameras, alerts)) == route
    ensures route != other ==> ScreenFor(route, devices, cameras, alerts) != ScreenFor(other, devices, cameras, alerts)
  {
    assert PageRoute(ScreenFor(other, devices, cameras, alerts)) == other;
  }
}

=== FILE: dashboard.dfy ===
/**
 * The dashboard's key figures (online, offline or inactive, active alerts, the simulated
 * ingestion lag) and the device the map is centred on.
 */
module Dashboard {
  import opened Wrappers
  import opened Types
  import opened Seqs

  function IsOnline(): Device -> bool {
    (d: Device) => d.status == Online
  }

  function NotOnline(): Device -> bool {
    (d: Device) => d.status != Online
  }

  function IsUnacked(): Alert -> bool {
    (a: Alert) => !a.acked
  }

  datatype Kpis = Kpis(online: nat, offline: nat, activeAlerts: nat, lag: int)

  /** The simulated lag `floor(r * 5) + 1`, where `r` is the `Math.random()` draw. */
  function Lag(r: real): (n: int)
    ensures 0.0 <= r < 1.0 ==> 1 <= n <= 5
  {
    (r * 5.0).Floor + 1
  }

  /** Every lag from 1 to 5 s is produced by some draw. */
  lemma LagCoversRange(n: int)
    requires 1 <= n <= 5
    ensures var r := (n - 1) as real / 5.0; 0.0 <= r < 1.0 && Lag(r) == n
  {
    var r := (n - 1) as real / 5.0;
    assert r * 5.0 == (n - 1) as real;
  }

  /** The four KPI tiles. */
  function ComputeKpis(devices: seq<Device>, alerts: seq<Alert>, lagDraw: real): (k: Kpis)
    ensures k.online == Count(devices, IsOnline()) && k.offline == Count(devices, NotOnline())
    ensures k.activeAlerts == Count(alerts, IsUnacked())
    ensures k.online + k.offline == |devices|
    ensures k.activeAlerts <= |alerts|
    ensures 0.0 <= lagDraw < 1.0 ==> 1 <= k.lag <= 5
  {
    CountSplit(devices, IsOnline(), NotOnline());
    Kpis(Count(devices, IsOnline()), Count(devices, NotOnline()), Count(alerts, IsUnacked()), Lag(lagDraw))
  }

  /** A count is zero exactly when no element qualifies. */
  lemma CountZeroIff<T>(xs: seq<T>, p: T -> bool)
    ensures Count(xs, p) == 0 <==> forall i :: 0 <= i < |xs| ==> !p(xs[i])
  {
    if Count(xs, p) == 0 {
      forall i | 0 <= i < |xs|
        ensures !p(xs[i])
      {
        FilterMembership(xs, p, xs[i]);
      }
    } else {
      var x := Filter(xs, p)[0];
      FilterMembership(xs, p, x);
    }
  }

  /** "Offline/Inactive" is zero iff every device is online; "Active Alerts" is zero iff all are acked. */
  lemma KpisZeroMeaning(devices: seq<Device>, alerts: seq<Alert>, lagDraw: real)
    ensures var k := ComputeKpis(devices, alerts, lagDraw);
      && (k.offline == 0 <==> forall i :: 0 <= i < |devices| ==> devices[i].status == Online)
      && (k.activeAlerts == 0 <==> forall i :: 0 <= i < |alerts| ==> alerts[i].acked)
  {
    CountZeroIff(devices, NotOnline());
    CountZeroIff(alerts, IsUnacked());
  }

  /**
   * The tiles count one record at a time: a further device adds one to "Online" or to
   * "Offline/Inactive" by its status, and a further alert adds one to "Active Alerts" iff unacked.
   */
  lemma KpisCountEachRecord(d: Device, devices: seq<Device>, a: Alert, alerts: seq<Alert>, lagDraw: real)
    ensures var k := ComputeKpis(devices, alerts, lagDraw);
      var k' := ComputeKpis([d] + devices, [a] + alerts, lagDraw);
      && k'.online == k.online + (if d.status == Online then 1 else 0)
      && k'.offline == k.offline + (if d.status == Online then 0 else 1)
      && k'.activeAlerts == k.activeAlerts + (if a.acked then 0 else 1)
  {
    CountCons(d, devices, IsOnline());
    CountCons(d, devices, NotOnline());
    CountCons(a, alerts, IsUnacked());
  }

  /** With no records every tile reads zero. */
  lemma KpisOfNothing(lagDraw: real)
    ensures var k := ComputeKpis([], [], lagDraw); k.online == 0 && k.offline == 0 && k.activeAlerts == 0
  {
  }

  /** The stand-in centre when there are no devices: an online "center" at 0, 0. */
  const SyntheticCenter: Device :=
    Device("center", "center", None, Online, None, None, 0.0, 0.0, None, None)

  /** `devices[0] ?? {...}`: the map centre. */
  function Center(devices: seq<Device>): (c: Device)
    ensures |devices| > 0 ==> c == devices[0]
    ensures |devices| == 0 ==> c.deviceId == "center" && c.status == Online && c.lat == 0.0 && c.lon == 0.0
  {
    if |devices| > 0 then devices[0] else SyntheticCenter
  }
}

=== FILE: datalab.dfy ===
/**
 * The alert-detail queries of the Data Lab page: the device an opened alert is about,
 * the collar neighbours within 200 m that reacted within five minutes of the alert,
 * and the cameras whose own coverage radius reaches that device. Great-circle distance
 * (`haversine`) is an uninterpreted parameter `geo(lat1, lon1, lat2, lon2)`.
 */
module DataLab {
  import opened Wrappers
  import opened Types
  import opened Seqs
  import opened StableSort
  import opened Text

  const NeighbourRadius: real := 200.0
  const ReactionWindow: int := 5 * 60 * 1000

  const NoNearbyDevices: string := "No nearby devices."
  const NoCamerasInCoverage: string := "No cameras within coverage."

  // ------------------------------------------------------------ focus device

  /** `devices.find(d => d.deviceId === id)`: the first device with that id. */
  function FindDevice(devices: seq<Device>, id: string): (r: Option<Device>)
    ensures r.None? <==> forall i :: 0 <= i < |devices| ==> devices[i].deviceId != id
    ensures r.Some? ==> exists i :: 0 <= i < |devices| && devices[i] == r.value && devices[i].deviceId == id
                                    && forall j :: 0 <= j < i ==> devices[j].deviceId != id
    decreases |devices|
  {
    if |devices| == 0 then None
    else if devices[0].deviceId == id then Some(devices[0])
    else
      var r := FindDevice(devices[1..], id);
      assert forall i :: 1 <= i < |devices| ==> devices[i] == devices[1..][i - 1];
      if r.Some? then
        var i :| 0 <= i < |devices[1..]| && devices[1..][i] == r.value && devices[1..][i].deviceId == id
                 && forall j :: 0 <= j < i ==> devices[1..][j].deviceId != id;
        assert devices[i + 1] == r.value;
        r
      else r
  }

  /**
   * `devForOpen`: the device the opened alert names, falling back to the first device
   * (`centerDev`) when none matches or no alert is open; absent only for an empty list.
   */
  function FocusDevice(devices: seq<Device>, open: Option<Alert>): (r: Option<Device>)
    ensures r.None? <==> |devices| == 0
    ensures open.Some? && FindDevice(devices, open.value.deviceId).Some? ==> r == FindDevice(devices, open.value.deviceId)
    ensures |devices| > 0 && (open.None? || FindDevice(devices, open.value.deviceId).None?) ==> r == Some(devices[0])
  {
    var found := if open.Some? then FindDevice(devices, open.value.deviceId) else None;
    if found.Some? then found
    else if |devices| > 0 then Some(devices[0])
    else None
  }

  // ------------------------------------------------------------ neighbours

  datatype Measured = Measured(device: Device, dist: real)

  datatype Neighbour = Neighbour(device: Device, dist: real, reactive: bool)

  function Abs(x: int): nat { if x < 0 then -x else x }

  /** Distance from the focus device to `d`, as the page computes it. */
  function DistFrom(focus: Device, d: Device, geo: (real, real, real, real) -> real): real {
    geo(focus.lat, focus.lon, d.lat, d.lon)
  }

  /** A collar (absent type counts as collar) other than the focus device itself. */
  predicate IsCandidate(focus: Device, d: Device) {
    d.deviceId != focus.deviceId && TypeOf(d) == Collar
  }

  function CandidateFor(focus: Device): Device -> bool {
    (d: Device) => IsCandidate(focus, d)
  }

  function MeasureFrom(focus: Device, geo: (real, real, real, real) -> real): Device -> Measured {
    (d: Device) => Measured(d, DistFrom(focus, d, geo))
  }

  predicate IsNear(m: Measured) {
    m.dist <= NeighbourRadius
  }

  /**
   * `alerts.some(z => z.deviceId === id && |ts(z) - t0| <= WIN)`: some alert of that
   * device, acknowledged or not, lies within five minutes of `t0`, both bounds inclusive.
   */
  function Reacts(id: string, alerts: seq<Alert>, t0: int): (b: bool)
    ensures b <==> exists i :: 0 <= i < |alerts| && alerts[i].deviceId == id
                               && Abs(alerts[i].ts - t0) <= ReactionWindow
    decreases |alerts|
  {
    if |alerts| == 0 then false
    else
      assert forall i :: 1 <= i < |alerts| ==> alerts[i] == alerts[1..][i - 1];
      (alerts[0].deviceId == id && Abs(alerts[0].ts - t0) <= ReactionWindow)
      || Reacts(id, alerts[1..], t0)
  }

  function MarkWith(alerts: seq<Alert>, t0: int): Measured -> Neighbour {
    (m: Measured) => Neighbour(m.device, m.dist, Reacts(m.device.deviceId, alerts, t0))
  }

  function NeighbourDist(n: Neighbour): real { n.dist }

  /** The neighbour pipeline before its final sort: filter, measure, filter, mark. */
  function UnsortedNeighbours(focus: Device, devices: seq<Device>, alerts: seq<Alert>, t0: int,
                              geo: (real, real, real, real) -> real): seq<Neighbour> {
    var cand := Filter(devices, CandidateFor(focus));
    var near := Filter(MapSeq(cand, MeasureFrom(focus, geo)), IsNear);
    MapSeq(near, MarkWith(alerts, t0))
  }

  /** The neighbour reactions of the focus device for an alert at time `t0`, nearest first. */
  function Neighbours(focus: Device, devices: seq<Device>, alerts: seq<Alert>, t0: int,
                      geo: (real, real, real, real) -> real): seq<Neighbour> {
    SortBy(UnsortedNeighbours(focus, devices, alerts, t0, geo), NeighbourDist)
  }

  /** The record the page shows for device `d`. */
  function NeighbourOf(focus: Device, d: Device, alerts: seq<Alert>, t0: int,
                       geo: (real, real, real, real) -> real): Neighbour {
    Neighbour(d, DistFrom(focus, d, geo), Reacts(d.deviceId, alerts, t0))
  }

  /**
   * Soundness and completeness: a record is listed iff it describes a collar of the list,
   * other than the focus, at distance at most 200 m, with its reactive flag as defined.
   */
  lemma NeighboursExactly(focus: Device, devices: seq<Device>, alerts: seq<Alert>, t0: int,
                          geo: (real, real, real, real) -> real, n: Neighbour)
    ensures n in Neighbours(focus, devices, alerts, t0, geo)
        <==> n.device in devices && IsCandidate(focus, n.device)
             && DistFrom(focus, n.device, geo) <= NeighbourRadius
             && n == NeighbourOf(focus, n.device, alerts, t0, geo)
  {
    var cand := Filter(devices, CandidateFor(focus));
    var measured := MapSeq(cand, MeasureFrom(focus, geo));
    var near := Filter(measured, IsNear);
    var marked := MapSeq(near, MarkWith(alerts, t0));
    var sorted := Neighbours(focus, devices, alerts, t0, geo);
    assert multiset(sorted) == multiset(marked);
    assert n in sorted <==> n in marked by {
      assert n in sorted <==> n in multiset(sorted);
      assert n in marked <==> n in multiset(marked);
    }
    if n in marked {
      MapSeqMembership(near, MarkWith(alerts, t0), n);
      var k :| 0 <= k < |near| && MarkWith(alerts, t0)(near[k]) == n;
      FilterMembership(measured, IsNear, near[k]);
      MapSeqMembership(cand, MeasureFrom(focus, geo), near[k]);
      var m :| 0 <= m < |cand| && MeasureFrom(focus, geo)(cand[m]) == near[k];
      FilterMembership(devices, CandidateFor(focus), cand[m]);
    }
    if n.device in devices && IsCandidate(focus, n.device)
       && DistFrom(focus, n.device, geo) <= NeighbourRadius
       && n == NeighbourOf(focus, n.device, alerts, t0, geo) {
      var d := n.device;
      FilterMembership(devices, CandidateFor(focus), d);
      var m :| 0 <= m < |cand| && cand[m] == d;
      assert measured[m] == Measured(d, DistFrom(focus, d, geo));
      FilterMembership(measured, IsNear, measured[m]);
      var k :| 0 <= k < |near| && near[k] == measured[m];
      assert marked[k] == n;
    }
  }

  /** The focal device, and every device that is not a collar, is never a neighbour. */
  lemma NeighboursExcludeFocusAndNonCollars(focus: Device, devices: seq<Device>, alerts: seq<Alert>,
                                            t0: int, geo: (real, real, real, real) -> real, i: int)
    requires 0 <= i < |Neighbours(focus, devices, alerts, t0, geo)|
    ensures Neighbours(focus, devices, alerts, t0, geo)[i].device.deviceId != focus.deviceId
    ensures TypeOf(Neighbours(focus, devices, alerts, t0, geo)[i].device) == Collar
  {
    NeighboursExactly(focus, devices, alerts, t0, geo, Neighbours(focus, devices, alerts, t0, geo)[i]);
  }

  /** Neighbours are listed nearest first, and equally distant ones keep the device-list order. */
  lemma NeighboursOrdered(focus: Device, devices: seq<Device>, alerts: seq<Alert>, t0: int,
                          geo: (real, real, real, real) -> real)
    ensures var ns := Neighbours(focus, devices, alerts, t0, geo);
      && (forall i, j :: 0 <= i < j < |ns| ==> ns[i].dist <= ns[j].dist)
      && multiset(ns) == multiset(UnsortedNeighbours(focus, devices, alerts, t0, geo))
      && SameKeyClasses(ns, UnsortedNeighbours(focus, devices, alerts, t0, geo), NeighbourDist)
  {
    var u := UnsortedNeighbours(focus, devices, alerts, t0, geo);
    SortBySorted(u, NeighbourDist);
    SortByStable(u, NeighbourDist);
    var ns := SortBy(u, NeighbourDist);
    assert forall i, j :: 0 <= i < j < |ns| ==> NeighbourDist(ns[i]) <= NeighbourDist(ns[j]);
  }

  // ------------------------------------------------------------ cameras

  datatype CameraHit = CameraHit(camera: Camera, dist: real)

  function MeasureCamera(focus: Device, geo: (real, real, real, real) -> real): Camera -> CameraHit {
    (c: Camera) => CameraHit(c, geo(focus.lat, focus.lon, c.lat, c.lon))
  }

  /** The camera's own radius reaches the focus device (inclusive). */
  predicate Covers(h: CameraHit) {
    h.dist <= h.camera.radiusM
  }

  function HitDist(h: CameraHit): real { h.dist }

  function UnsortedCameraHits(focus: Device, cameras: seq<Camera>,
                              geo: (real, real, real, real) -> real): seq<CameraHit> {
    Filter(MapSeq(cameras, MeasureCamera(focus, geo)), Covers)
  }

  /** The in-range cameras of the focus device, nearest first. */
  function CamerasInRange(focus: Device, cameras: seq<Camera>,
                          geo: (real, real, real, real) -> real): seq<CameraHit> {
    SortBy(UnsortedCameraHits(focus, cameras, geo), HitDist)
  }

  /** A camera is listed iff its distance to the focus device is at most its own radius. */
  lemma CamerasInRangeExactly(focus: Device, cameras: seq<Camera>,
                              geo: (real, real, real, real) -> real, h: CameraHit)
    ensures h in CamerasInRange(focus, cameras, geo)
        <==> h.camera in cameras && h.dist == geo(focus.lat, focus.lon, h.camera.lat, h.camera.lon)
             && h.dist <= h.camera.radiusM
  {
    var measured := MapSeq(cameras, MeasureCamera(focus, geo));
    var hits := Filter(measured, Covers);
    var sorted := CamerasInRange(focus, cameras, geo);
    assert multiset(sorted) == multiset(hits);
    assert h in sorted <==> h in hits by {
      assert h in sorted <==> h in multiset(sorted);
      assert h in hits <==> h in multiset(hits);
    }
    FilterMembership(measured, Covers, h);
    MapSeqMembership(cameras, MeasureCamera(focus, geo), h);
    if h.camera in cameras && h.dist == geo(focus.lat, focus.lon, h.camera.lat, h.camera.lon) {
      var k :| 0 <= k < |cameras| && cameras[k] == h.camera;
      assert MeasureCamera(focus, geo)(cameras[k]) == h;
    }
  }

  /** Cameras are listed nearest first, equal distances in camera-list order. */
  lemma CamerasInRangeOrdered(focus: Device, cameras: seq<Camera>, geo: (real, real, real, real) -> real)
    ensures var cs := CamerasInRange(focus, cameras, geo);
      && (forall i, j :: 0 <= i < j < |cs| ==> cs[i].dist <= cs[j].dist)
      && SameKeyClasses(cs, UnsortedCameraHits(focus, cameras, geo), HitDist)
  {
    var u := UnsortedCameraHits(focus, cameras, geo);
    SortBySorted(u, HitDist);
    SortByStable(u, HitDist);
    var cs := SortBy(u, HitDist);
    assert forall i, j :: 0 <= i < j < |cs| ==> HitDist(cs[i]) <= HitDist(cs[j]);
  }

  // ------------------------------------------------------------ report text

  /** `${alias} (${deviceId}) — ${dist.toFixed(1)} m • ${Reactive | No recent alert}`. */
  function NeighbourLine(n: Neighbour, fixed1: real -> string): string {
    n.device.alias + " (" + n.device.deviceId + ") — " + fixed1(n.dist) + " m • "
    + (if n.reactive then "Reactive" else "No recent alert")
  }

  /** `${name} — ${dist.toFixed(1)} m • coverage ${radiusM} m`. */
  function CameraLine(h: CameraHit, fixed1: real -> string, num: real -> string): string {
    h.camera.name + " — " + fixed1(h.dist) + " m • coverage " + num(h.camera.radiusM) + " m"
  }

  lemma NoDashInLiteral(s: string)
    requires s == NoNearbyDevices || s == NoCamerasInCoverage
    ensures forall i :: 0 <= i < |s| ==> s[i] != '—'
  {
  }

  /** A non-empty report begins with a line that contains '—', which the empty-case literals lack. */
  lemma ReportIsNotPlaceholder(lines: seq<string>, k: nat, placeholder: string)
    requires |lines| > 0 && k < |lines[0]| && lines[0][k] == '—'
    requires placeholder == NoNearbyDevices || placeholder == NoCamerasInCoverage
    ensures Join(lines, "\n") != placeholder
  {
    var r := Join(lines, "\n");
    NoDashInLiteral(placeholder);
    assert r[k] == '—';
  }

  /**
   * The "Neighbor Reactions" text: the placeholder iff there is no focus device or no
   * neighbour, otherwise one line per neighbour, nearest first.
   */
  function NeighbourReport(devices: seq<Device>, alerts: seq<Alert>, open: Alert,
                           geo: (real, real, real, real) -> real, fixed1: real -> string): (r: string)
    ensures r == NoNearbyDevices
        <==> FocusDevice(devices, Some(open)).None?
             || |Neighbours(FocusDevice(devices, Some(open)).value, devices, alerts, open.ts, geo)| == 0
  {
    var focus := FocusDevice(devices, Some(open));
    if focus.None? then NoNearbyDevices
    else
      var ns := Neighbours(focus.value, devices, alerts, open.ts, geo);
      if |ns| == 0 then NoNearbyDevices
      else
        var lines := MapSeq(ns, n => NeighbourLine(n, fixed1));
        var n0 := ns[0];
        var k := |n0.device.alias| + 2 + |n0.device.deviceId| + 2;
        assert lines[0][k] == '—';
        ReportIsNotPlaceholder(lines, k, NoNearbyDevices);
        Join(lines, "\n")
  }

  /** The "In-Range Cameras" text: the placeholder iff no camera covers the focus device. */
  function CameraReport(devices: seq<Device>, cameras: seq<Camera>, open: Alert,
                        geo: (real, real, real, real) -> real,
                        fixed1: real -> string, num: real -> string): (r: string)
    ensures r == NoCamerasInCoverage
        <==> FocusDevice(devices, Some(open)).None?
             || |CamerasInRange(FocusDevice(devices, Some(open)).value, cameras, geo)| == 0
  {
    var focus := FocusDevice(devices, Some(open));
    if focus.None? then NoCamerasInCoverage
    else
      var cs := CamerasInRange(focus.value, cameras, geo);
      if |cs| == 0 then NoCamerasInCoverage
      else
        var lines := MapSeq(cs, h => CameraLine(h, fixed1, num));
        var k := |cs[0].camera.name| + 1;
        assert lines[0][k] == '—';
        ReportIsNotPlaceholder(lines, k, NoCamerasInCoverage);
        Join(lines, "\n")
  }

  /** With no cameras at all (as the shell passes to its data-lab page) the report is the placeholder. */
  lemma NoCamerasGivesPlaceholder(devices: seq<Device>, open: Alert, geo: (real, real, real, real) -> real,
                                  fixed1: real -> string, num: real -> string)
    ensures CameraReport(devices, [], open, geo, fixed1, num) == NoCamerasInCoverage
  {
    var focus := FocusDevice(devices, Some(open));
    if focus.Some? {
      assert |UnsortedCameraHits(focus.value, [], geo)| == 0;
    }
  }
}

=== FILE: devicespage.dfy ===
/**
 * The devices table's row filter: by type (absent type counts as collar), by status, and
 * by a case-insensitive substring search over "alias id".
 */
module DevicesPage {
  import opened Types
  import opened Seqs
  import opened Text

  datatype TypeFilter = AnyType | OfType(t: DeviceType)

  datatype StatusFilter = AnyStatus | OfStatus(s: Status)

  /** The text the search box looks in. */
  function SearchText(d: Device): string {
    d.alias + " " + d.deviceId
  }

  predicate TypeMatches(d: Device, tf: TypeFilter) {
    tf.AnyType? || TypeOf(d) == tf.t
  }

  predicate StatusMatches(d: Device, sf: StatusFilter) {
    sf.AnyStatus? || d.status == sf.s
  }

  /** An empty query matches everything; otherwise the lowered query must occur in the lowered text. */
  predicate SearchMatches(d: Device, q: string) {
    ToLower(q) == "" || Includes(ToLower(SearchText(d)), ToLower(q))
  }

  predicate RowMatches(d: Device, tf: TypeFilter, sf: StatusFilter, q: string) {
    TypeMatches(d, tf) && StatusMatches(d, sf) && SearchMatches(d, q)
  }

  function RowFilter(tf: TypeFilter, sf: StatusFilter, q: string): Device -> bool {
    (d: Device) => RowMatches(d, tf, sf, q)
  }

  /** The rows shown, in list order. */
  function Rows(devices: seq<Device>, tf: TypeFilter, sf: StatusFilter, q: string): (r: seq<Device>)
    ensures |r| <= |devices|
    ensures forall i :: 0 <= i < |r| ==> RowMatches(r[i], tf, sf, q)
  {
    Filter(devices, RowFilter(tf, sf, q))
  }

  lemma RowsExactly(devices: seq<Device>, tf: TypeFilter, sf: StatusFilter, q: string, d: Device)
    ensures d in Rows(devices, tf, sf, q) <==> d in devices && RowMatches(d, tf, sf, q)
    ensures IsSubsequence(Rows(devices, tf, sf, q), devices)
    ensures multiset(Rows(devices, tf, sf, q))[d] == if RowMatches(d, tf, sf, q) then multiset(devices)[d] else 0
  {
    FilterMultiplicity(devices, RowFilter(tf, sf, q), d);
    FilterMembership(devices, RowFilter(tf, sf, q), d);
    FilterIsSubsequence(devices, RowFilter(tf, sf, q));
  }

  /** No type, no status and no query: every device is listed. */
  lemma RowsUnfiltered(devices: seq<Device>)
    ensures Rows(devices, AnyType, AnyStatus, "") == devices
  {
    FilterAll(devices, RowFilter(AnyType, AnyStatus, ""));
  }

  /** Lowering distributes over concatenation. */
  lemma ToLowerAppend(a: string, b: string)
    ensures ToLower(a + b) == ToLower(a) + ToLower(b)
  {
  }

  lemma ToLowerIdempotent(s: string)
    ensures ToLower(ToLower(s)) == ToLower(s)
  {
  }

  /** The search ignores ASCII case: a query and its lowered form list the same rows. */
  lemma SearchIgnoresCase(devices: seq<Device>, tf: TypeFilter, sf: StatusFilter, q: string)
    ensures Rows(devices, tf, sf, ToLower(q)) == Rows(devices, tf, sf, q)
  {
    ToLowerIdempotent(q);
    FilterCongruent(devices, RowFilter(tf, sf, ToLower(q)), RowFilter(tf, sf, q));
  }

  /** Typing a device's id (in any ASCII case) keeps that device listed. */
  lemma SearchFindsId(devices: seq<Device>, d: Device, q: string)
    requires d in devices && ToLower(q) == ToLower(d.deviceId)
    ensures d in Rows(devices, AnyType, AnyStatus, q)
  {
    var prefix := d.alias + " ";
    assert SearchText(d) == prefix + d.deviceId;
    ToLowerAppend(prefix, d.deviceId);
    var text := ToLower(SearchText(d));
    assert text[|prefix|..|prefix| + |ToLower(q)|] == ToLower(q);
    assert OccursAt(text, ToLower(q), |prefix|);
    RowsExactly(devices, AnyType, AnyStatus, q, d);
  }

  /** Narrowing the type filter only removes rows. */
  lemma TypeFilterNarrows(devices: seq<Device>, t: DeviceType, sf: StatusFilter, q: string, d: Device)
    ensures d in Rows(devices, OfType(t), sf, q) <==> d in Rows(devices, AnyType, sf, q) && TypeOf(d) == t
  {
    RowsExactly(devices, OfType(t), sf, q, d);
    RowsExactly(devices, AnyType, sf, q, d);
  }
}

=== FILE: maintenance.dfy ===
/**
 * The maintenance page's list edits: adding a device or a camera from the forms, toggling
 * a device between online and offline, removing devices and cameras, and setting a
 * camera's feed URL from a prompt. The random id suffixes and the prompt's answer are inputs.
 */
module Maintenance {
  import opened Wrappers
  import opened Types
  import opened Seqs
  import opened Text

  const DefaultRanch: string := "North Pasture"
  const NewDeviceBattery: real := 3.9
  const NewDeviceRssi: real := -75.0
  const MissingFieldsMessage: string := "Alias and Device ID are required."
  const DefaultCameraName: string := "New Cam"
  const FallbackCameraName: string := "Cam"
  const CameraIdPrefix: string := "cam-"

  datatype DeviceForm = DeviceForm(dtype: DeviceType, alias: string, deviceId: string,
                                   ranch: string, lat: real, lon: real)

  const InitialDeviceForm: DeviceForm := DeviceForm(Collar, "", "", DefaultRanch, 40.5855, -105.0849)

  datatype CameraForm = CameraForm(name: string, lat: real, lon: real, radiusM: real,
                                   rssi: real, feed: string)

  const InitialCameraForm: CameraForm := CameraForm(DefaultCameraName, 40.5857, -105.0852, 150.0, -70.0, "")

  /**
   * A numeric input's value: `Number(v) || d` / `parseInt(v, 10) || d`. `None` stands for an
   * unparsable entry (NaN); like NaN, zero also falls back to the default.
   */
  function NumberOr(parsed: Option<real>, d: real): (v: real)
    ensures parsed.Some? && parsed.value != 0.0 ==> v == parsed.value
    ensures parsed.None? || parsed.value == 0.0 ==> v == d
  {
    if parsed.Some? && parsed.value != 0.0 then parsed.value else d
  }

  /** A radius or RSSI of 0 cannot be entered: it becomes the default. */
  lemma ZeroFieldFallsBack()
    ensures NumberOr(Some(0.0), 150.0) == 150.0 && NumberOr(Some(0.0), -70.0) == -70.0
  {
  }

  /** A non-empty string of whitespace only: the one kind of typed entry that trims to nothing. */
  predicate WhitespaceOnly(s: string) {
    |s| > 0 && forall i :: 0 <= i < |s| ==> IsJsWhitespace(s[i])
  }

  /** A string that neither starts nor ends with whitespace. */
  predicate Unpadded(s: string) {
    |s| == 0 || (!IsJsWhitespace(s[0]) && !IsJsWhitespace(s[|s| - 1]))
  }

  /** `(typed || type + "-" + suffix).trim()`. */
  function TypedOrGenerated(typed: string, t: DeviceType, suffix: string): (r: string)
    ensures Unpadded(r)
  {
    Trim(if typed == "" then DeviceTypeName(t) + "-" + suffix else typed)
  }

  /** `ranch.trim() || 'North Pasture'`. */
  function RanchOrDefault(ranch: string): (r: string)
    ensures r != [] && Unpadded(r)
    ensures r == DefaultRanch || r == Trim(ranch)
    ensures r == DefaultRanch <==> (forall i :: 0 <= i < |ranch| ==> IsJsWhitespace(ranch[i])) || Trim(ranch) == DefaultRanch
  {
    TrimEmptyIffBlank(ranch);
    var t := Trim(ranch);
    if t != "" then t else DefaultRanch
  }

  datatype DeviceAdd = DeviceAdd(devices: seq<Device>, form: DeviceForm, error: Option<string>)

  /**
   * "Add Device": the new device goes to the front of the list, online, with the demo battery
   * and RSSI; the alias and id inputs are cleared while type, ranch and position stay for the
   * next entry. A blank alias or id leaves everything as it was and raises the message.
   */
  function AddDevice(form: DeviceForm, devices: seq<Device>, aliasSuffix: string, idSuffix: string): (r: DeviceAdd)
    ensures r.error.Some? ==> r.devices == devices && r.form == form && r.error.value == MissingFieldsMessage
    ensures r.error.None? ==> && |r.devices| == |devices| + 1 && r.devices[1..] == devices
                              && r.form == form.(alias := "", deviceId := "")
    ensures r.error.None? ==>
      var d := r.devices[0];
      && d.alias != [] && Unpadded(d.alias) && d.deviceId != [] && Unpadded(d.deviceId)
      && d.dtype == Some(form.dtype) && d.status == Online
      && d.batteryV == Some(NewDeviceBattery) && d.rssi == Some(NewDeviceRssi)
      && d.lat == form.lat && d.lon == form.lon
      && d.ranch.Some? && d.ranch.value != [] && Unpadded(d.ranch.value)
      && d.fwVersion.None?
  ensures r.error.None? ==>
      var d := r.devices[0];
      && d.alias == TypedOrGenerated(form.alias, form.dtype, aliasSuffix)
      && d.deviceId == TypedOrGenerated(form.deviceId, form.dtype, idSuffix)
      && d.ranch == Some(RanchOrDefault(form.ranch))
  {
    var alias := TypedOrGenerated(form.alias, form.dtype, aliasSuffix);
    var id := TypedOrGenerated(form.deviceId, form.dtype, idSuffix);
    if alias == "" || id == "" then DeviceAdd(devices, form, Some(MissingFieldsMessage))
    else
      var ranch := RanchOrDefault(form.ranch);
      var d := Device(alias, id, Some(form.dtype), Online, Some(NewDeviceBattery), Some(ranch),
                      form.lat, form.lon, None, Some(NewDeviceRssi));
      var added := [d] + devices;
      assert added[0] == d && added[1..] == devices;
      DeviceAdd(added, form.(alias := "", deviceId := ""), None)
  }

  /** A generated name always has content: the `-` between type and suffix is not whitespace. */
  lemma GeneratedNameNotBlank(t: DeviceType, suffix: string)
    ensures Trim(DeviceTypeName(t) + "-" + suffix) != ""
  {
    var g := DeviceTypeName(t) + "-" + suffix;
    assert g[|DeviceTypeName(t)|] == '-';
    TrimEmptyIffBlank(g);
  }

  /** Adding fails exactly when a typed alias or id consists of whitespace only. */
  lemma AddDeviceRejectsExactly(form: DeviceForm, devices: seq<Device>, aliasSuffix: string, idSuffix: string)
    ensures AddDevice(form, devices, aliasSuffix, idSuffix).error.Some?
            <==> WhitespaceOnly(form.alias) || WhitespaceOnly(form.deviceId)
  {
    GeneratedNameNotBlank(form.dtype, aliasSuffix);
    GeneratedNameNotBlank(form.dtype, idSuffix);
    TrimEmptyIffBlank(form.alias);
    TrimEmptyIffBlank(form.deviceId);
  }

  /** A typed alias and id are kept as typed, less surrounding whitespace. */
  lemma AddDeviceKeepsTypedNames(form: DeviceForm, devices: seq<Device>, aliasSuffix: string, idSuffix: string)
    requires |form.alias| > 0 && !IsJsWhitespace(form.alias[0]) && !IsJsWhitespace(form.alias[|form.alias| - 1])
    requires |form.deviceId| > 0 && !IsJsWhitespace(form.deviceId[0]) && !IsJsWhitespace(form.deviceId[|form.deviceId| - 1])
    ensures var r := AddDevice(form, devices, aliasSuffix, idSuffix);
      r.error.None? && r.devices[0].alias == form.alias && r.devices[0].deviceId == form.deviceId
  {
    TrimNoPadding(form.alias);
    TrimNoPadding(form.deviceId);
  }

  /** Left blank, the alias and id are generated as `<type>-<suffix>`, and adding succeeds. */
  lemma AddDeviceGeneratesNames(form: DeviceForm, devices: seq<Device>, aliasSuffix: string, idSuffix: string)
    requires form.alias == "" && form.deviceId == ""
    ensures var r := AddDevice(form, devices, aliasSuffix, idSuffix);
      && r.error.None?
      && r.devices[0].alias == Trim(DeviceTypeName(form.dtype) + "-" + aliasSuffix)
      && r.devices[0].deviceId == Trim(DeviceTypeName(form.dtype) + "-" + idSuffix)
  {
    GeneratedNameNotBlank(form.dtype, aliasSuffix);
    GeneratedNameNotBlank(form.dtype, idSuffix);
  }

  /** An added device's ranch is "North Pasture" when the ranch input trims to nothing. */
  lemma AddDeviceDefaultsRanch(form: DeviceForm, devices: seq<Device>, aliasSuffix: string, idSuffix: string)
    ensures var r := AddDevice(form, devices, aliasSuffix, idSuffix);
      r.error.None? ==>
        && (Trim(form.ranch) == "" ==> r.devices[0].ranch == Some(DefaultRanch))
        && (Trim(form.ranch) != "" ==> r.devices[0].ranch == Some(Trim(form.ranch)))
  {
  }

  /** Devices whose id differs from `id`. */
  function OtherDevice(id: string): Device -> bool {
    (d: Device) => d.deviceId != id
  }

  /** "Remove" on a device row: every device with that id leaves the list, the rest keep their order. */
  function RemoveDevice(devices: seq<Device>, id: string): (r: seq<Device>)
    ensures |r| <= |devices|
    ensures forall i :: 0 <= i < |r| ==> r[i].deviceId != id
  {
    Filter(devices, OtherDevice(id))
  }

  lemma RemoveDeviceExactly(devices: seq<Device>, id: string, d: Device)
    ensures d in RemoveDevice(devices, id) <==> d in devices && d.deviceId != id
    ensures IsSubsequence(RemoveDevice(devices, id), devices)
    ensures multiset(RemoveDevice(devices, id))[d] == if d.deviceId != id then multiset(devices)[d] else 0
  {
    FilterMultiplicity(devices, OtherDevice(id), d);
    FilterMembership(devices, OtherDevice(id), d);
    FilterIsSubsequence(devices, OtherDevice(id));
  }

  /**
   * Removing the device just added gives what removing its id from the old list gives: the
   * old list itself when no older device shares the id, otherwise the old list without them.
   */
  lemma AddThenRemoveDevice(form: DeviceForm, devices: seq<Device>, aliasSuffix: string, idSuffix: string)
    ensures var r := AddDevice(form, devices, aliasSuffix, idSuffix);
      r.error.None? ==> RemoveDevice(r.devices, r.devices[0].deviceId) == RemoveDevice(devices, r.devices[0].deviceId)
    ensures var r := AddDevice(form, devices, aliasSuffix, idSuffix);
      r.error.None? && (forall i :: 0 <= i < |devices| ==> devices[i].deviceId != r.devices[0].deviceId) ==>
        RemoveDevice(r.devices, r.devices[0].deviceId) == devices
  {
    var r := AddDevice(form, devices, aliasSuffix, idSuffix);
    if r.error.None? {
      var id := r.devices[0].deviceId;
      assert r.devices == [r.devices[0]] + devices;
      FilterCons(r.devices[0], devices, OtherDevice(id));
      if forall i :: 0 <= i < |devices| ==> devices[i].deviceId != id {
        FilterAll(devices, OtherDevice(id));
      }
    }
  }

  /** The status "Toggle Online" gives: online becomes offline, anything else online. */
  function Toggled(s: Status): (t: Status)
    ensures t != Inactive
    ensures t == Offline <==> s == Online
  {
    if s == Online then Offline else Online
  }

  /** "Toggle Online": toggles the status of every device with that id; nothing else changes. */
  function ToggleOnline(devices: seq<Device>, id: string): (r: seq<Device>)
    ensures |r| == |devices|
    ensures forall i :: 0 <= i < |r| && devices[i].deviceId != id ==> r[i] == devices[i]
    ensures forall i :: 0 <= i < |r| && devices[i].deviceId == id ==>
              r[i] == devices[i].(status := Toggled(devices[i].status))
  {
    seq(|devices|, i requires 0 <= i < |devices| =>
      if devices[i].deviceId == id then devices[i].(status := Toggled(devices[i].status)) else devices[i])
  }

  /** Toggling twice restores the list exactly when none of the toggled devices was inactive. */
  lemma ToggleTwiceRestores(devices: seq<Device>, id: string)
    ensures ToggleOnline(ToggleOnline(devices, id), id) == devices
            <==> forall i :: 0 <= i < |devices| && devices[i].deviceId == id ==> devices[i].status != Inactive
  {
    var r := ToggleOnline(ToggleOnline(devices, id), id);
    if forall i :: 0 <= i < |devices| && devices[i].deviceId == id ==> devices[i].status != Inactive {
      assert forall i :: 0 <= i < |devices| ==> r[i] == devices[i];
    } else {
      var i :| 0 <= i < |devices| && devices[i].deviceId == id && devices[i].status == Inactive;
      assert r[i].status == Offline;
    }
  }

  /** After a toggle every device with that id is online or offline, never inactive. */
  lemma ToggleLeavesNoInactive(devices: seq<Device>, id: string)
    ensures forall i :: 0 <= i < |devices| && devices[i].deviceId == id ==>
              ToggleOnline(devices, id)[i].status in {Online, Offline}
  {
  }

  /** "Add Camera": a new camera at the front with id `cam-<suffix>`; the name and feed inputs reset. */
  function AddCamera(form: CameraForm, cameras: seq<Camera>, idSuffix: string): (r: (seq<Camera>, CameraForm))
    ensures |r.0| == |cameras| + 1 && r.0[1..] == cameras
    ensures r.1 == form.(name := DefaultCameraName, feed := "")
    ensures var c := r.0[0];
      && c.id == CameraIdPrefix + idSuffix
      && c.name != [] && Unpadded(c.name)
      && c.lat == form.lat && c.lon == form.lon && c.radiusM == form.radiusM
      && c.rssi == Some(form.rssi) && c.feedUrl == Some(form.feed) && c.note.None?
  {
    var name := if Trim(form.name) != "" then Trim(form.name) else FallbackCameraName;
    var c := Camera(CameraIdPrefix + idSuffix, name, form.lat, form.lon, form.radiusM,
                    Some(form.rssi), Some(form.feed), None);
    ([c] + cameras, form.(name := DefaultCameraName, feed := ""))
  }

  /** A blank name becomes "Cam"; any other is kept without its surrounding whitespace. */
  lemma AddCameraName(form: CameraForm, cameras: seq<Camera>, idSuffix: string)
    ensures var c := AddCamera(form, cameras, idSuffix).0[0];
      && (c.name == FallbackCameraName <==> (forall i :: 0 <= i < |form.name| ==> IsJsWhitespace(form.name[i])) || Trim(form.name) == FallbackCameraName)
      && (c.name != FallbackCameraName ==> c.name == Trim(form.name))
  {
    TrimEmptyIffBlank(form.name);
  }

  function OtherCamera(id: string): Camera -> bool {
    (c: Camera) => c.id != id
  }

  /** "Remove" on a camera row. */
  function RemoveCamera(cameras: seq<Camera>, id: string): (r: seq<Camera>)
    ensures |r| <= |cameras|
    ensures forall i :: 0 <= i < |r| ==> r[i].id != id
  {
    Filter(cameras, OtherCamera(id))
  }

  lemma RemoveCameraExactly(cameras: seq<Camera>, id: string, c: Camera)
    ensures c in RemoveCamera(cameras, id) <==> c in cameras && c.id != id
    ensures IsSubsequence(RemoveCamera(cameras, id), cameras)
    ensures multiset(RemoveCamera(cameras, id))[c] == if c.id != id then multiset(cameras)[c] else 0
  {
    FilterMultiplicity(cameras, OtherCamera(id), c);
    FilterMembership(cameras, OtherCamera(id), c);
    FilterIsSubsequence(cameras, OtherCamera(id));
  }

  /**
   * Removing the camera just added gives what removing its id from the old list gives: the
   * old list itself when no older camera shares the id.
   */
  lemma AddThenRemoveCamera(form: CameraForm, cameras: seq<Camera>, idSuffix: string)
    ensures var cs := AddCamera(form, cameras, idSuffix).0;
      RemoveCamera(cs, cs[0].id) == RemoveCamera(cameras, cs[0].id)
    ensures var cs := AddCamera(form, cameras, idSuffix).0;
      (forall i :: 0 <= i < |cameras| ==> cameras[i].id != cs[0].id) ==> RemoveCamera(cs, cs[0].id) == cameras
  {
    var cs := AddCamera(form, cameras, idSuffix).0;
    var id := cs[0].id;
    assert cs == [cs[0]] + cameras;
    FilterCons(cs[0], cameras, OtherCamera(id));
    if forall i :: 0 <= i < |cameras| ==> cameras[i].id != id {
      FilterAll(cameras, OtherCamera(id));
    }
  }

  /** The prompt's pre-filled text: the current feed or nothing. */
  function PromptDefault(c: Camera): string {
    c.feedUrl.GetOr("")
  }

  /**
   * "Set Feed": the prompt's answer becomes the feed of every camera with that id; a
   * cancelled prompt (`None`) stores the empty string, clearing the feed.
   */
  function SetFeed(cameras: seq<Camera>, id: string, answer: Option<string>): (r: seq<Camera>)
    ensures |r| == |cameras|
    ensures forall i :: 0 <= i < |r| && cameras[i].id != id ==> r[i] == cameras[i]
    ensures forall i :: 0 <= i < |r| && cameras[i].id == id ==>
              r[i] == cameras[i].(feedUrl := Some(answer.GetOr("")))
  {
    seq(|cameras|, i requires 0 <= i < |cameras| =>
      if cameras[i].id == id then cameras[i].(feedUrl := Some(answer.GetOr(""))) else cameras[i])
  }

  /** The later answer wins: setting the feed twice is setting it once to the second answer. */
  lemma SetFeedLastWins(cameras: seq<Camera>, id: string, a: Option<string>, b: Option<string>)
    ensures SetFeed(SetFeed(cameras, id, a), id, b) == SetFeed(cameras, id, b)
  {
  }

  /** Accepting the pre-filled text leaves a camera with a feed unchanged. */
  lemma SetFeedAcceptDefault(cameras: seq<Camera>, i: int)
    requires 0 <= i < |cameras| && cameras[i].feedUrl.Some?
    ensures SetFeed(cameras, cameras[i].id, Some(PromptDefault(cameras[i])))[i] == cameras[i]
  {
  }

  /** The feed column's tag: "set" for a non-empty URL, otherwise "empty". */
  function FeedTag(c: Camera): (t: string)
    ensures t == "set" <==> c.feedUrl.Some? && c.feedUrl.value != ""
    ensures t == "set" || t == "empty"
  {
    if c.feedUrl.Some? && c.feedUrl.value != "" then "set" else "empty"
  }
}

=== FILE: mapview.dfy ===
/**
 * The schematic map: projection of coordinates to pixels around the centre device, the
 * zoom buttons, range rings, device markers (shape and colour precedence), RSSI halos and
 * the camera viewer's choice between "no feed", the HLS notice and a plain video element.
 */
module MapView {
  import opened Wrappers
  import opened Types
  import opened Signal
  import opened Reals

  const MapWidth: real := 600.0
  const DefaultHeight: real := 420.0
  /** Metres from the centre that reach `EdgeMargin` pixels from the map's edge at zoom 1. */
  const RangeMetres: real := 220.0
  const EdgeMargin: real := 24.0
  const MetresPerDegLat: real := 111132.0
  const MetresPerDegLonAtEquator: real := 111320.0

  const MinZoom: real := 0.6
  const MaxZoom: real := 2.5
  const ZoomStep: real := 1.2
  const InitialZoom: real := 1.0

  // ------------------------------------------------------------ projection

  /** Pixels per metre: `((600 / 2 - 24) / 220) * zoom`. */
  function Scale(zoom: real): (s: real)
    ensures s * RangeMetres == (MapWidth / 2.0 - EdgeMargin) * zoom
    ensures zoom > 0.0 ==> s > 0.0
    ensures zoom != 0.0 ==> s != 0.0
  {
    ((MapWidth / 2.0 - EdgeMargin) / RangeMetres) * zoom
  }

  /** `metersPerDeg(lat).lon`, with `cosLat` standing for `Math.cos(lat * PI / 180)`. */
  function MetresPerDegLon(cosLat: real): real {
    MetresPerDegLonAtEquator * cosLat
  }

  /** `mapRef.current?.clientHeight || 420`: an absent or zero height falls back to 420. */
  function MapHeight(clientHeight: Option<nat>): (h: real)
    ensures h > 0.0
    ensures clientHeight.Some? && clientHeight.value > 0 ==> h == clientHeight.value as real
    ensures clientHeight.None? || clientHeight.value == 0 ==> h == DefaultHeight
  {
    if clientHeight.Some? && clientHeight.value != 0 then clientHeight.value as real else DefaultHeight
  }

  /** What the projection depends on: the centre, the metres per degree of longitude there, zoom and height. */
  datatype Frame = Frame(centerLat: real, centerLon: real, mpdLon: real, zoom: real, height: real)

  function FrameFor(center: Device, cosCenterLat: real, zoom: real, clientHeight: Option<nat>): Frame {
    Frame(center.lat, center.lon, MetresPerDegLon(cosCenterLat), zoom, MapHeight(clientHeight))
  }

  datatype Pixel = Pixel(left: real, top: real)

  /** `toPixel(lat, lon)`: east is right, north is up, the centre sits mid-map. */
  function ToPixel(f: Frame, lat: real, lon: real): Pixel {
    var dx := (lon - f.centerLon) * f.mpdLon;
    var dy := (lat - f.centerLat) * MetresPerDegLat;
    Pixel(MapWidth / 2.0 + dx * Scale(f.zoom), f.height / 2.0 - dy * Scale(f.zoom))
  }

  /** A frame in which the projection can be inverted. */
  predicate Invertible(f: Frame) {
    f.zoom != 0.0 && f.mpdLon != 0.0
  }

  /** The coordinates a pixel stands for. */
  function FromPixel(f: Frame, p: Pixel): (ll: (real, real))
    requires Invertible(f)
  {
    var s := Scale(f.zoom);
    assert s != 0.0;
    (f.centerLat + (f.height / 2.0 - p.top) / (MetresPerDegLat * s),
     f.centerLon + (p.left - MapWidth / 2.0) / (f.mpdLon * s))
  }

  lemma ProjectThenRecover(f: Frame, lat: real, lon: real)
    requires Invertible(f)
    ensures FromPixel(f, ToPixel(f, lat, lon)) == (lat, lon)
  {
    var s := Scale(f.zoom);
    var p := ToPixel(f, lat, lon);
    var ky, kx := MetresPerDegLat * s, f.mpdLon * s;
    assert ky != 0.0 && kx != 0.0;
    assert f.height / 2.0 - p.top == (lat - f.centerLat) * ky;
    assert p.left - MapWidth / 2.0 == (lon - f.centerLon) * kx;
    assert (lat - f.centerLat) * ky / ky == lat - f.centerLat;
    assert (lon - f.centerLon) * kx / kx == lon - f.centerLon;
  }

  lemma RecoverThenProject(f: Frame, p: Pixel)
    requires Invertible(f)
    ensures var ll := FromPixel(f, p); ToPixel(f, ll.0, ll.1) == p
  {
    var s := Scale(f.zoom);
    var ll := FromPixel(f, p);
    var a := (f.height / 2.0 - p.top) / (MetresPerDegLat * s);
    var b := (p.left - MapWidth / 2.0) / (f.mpdLon * s);
    assert (ll.0 - f.centerLat) * MetresPerDegLat * s == a * (MetresPerDegLat * s);
    assert (ll.1 - f.centerLon) * f.mpdLon * s == b * (f.mpdLon * s);
  }

  /** The centre device is drawn at (300, height / 2). */
  lemma CentreIsMidMap(f: Frame)
    ensures ToPixel(f, f.centerLat, f.centerLon) == Pixel(MapWidth / 2.0, f.height / 2.0)
  {
  }

  /** Before the map has been measured, its centre is drawn at (300, 210). */
  lemma CentreOfUnmeasuredMap(centerLat: real, centerLon: real, mpdLon: real, zoom: real)
    ensures var f := Frame(centerLat, centerLon, mpdLon, zoom, MapHeight(None));
      ToPixel(f, centerLat, centerLon) == Pixel(300.0, 210.0)
  {
    CentreIsMidMap(Frame(centerLat, centerLon, mpdLon, zoom, MapHeight(None)));
  }

  /** North is up and (where a degree of longitude has positive length) east is right. */
  lemma ProjectionOrientation(f: Frame, lat1: real, lon1: real, lat2: real, lon2: real)
    requires f.zoom > 0.0
    ensures lat1 < lat2 ==> ToPixel(f, lat2, lon2).top < ToPixel(f, lat1, lon1).top
    ensures f.mpdLon > 0.0 && lon1 < lon2 ==> ToPixel(f, lat1, lon1).left < ToPixel(f, lat2, lon2).left
  {
    if lat1 < lat2 {
      NorthIsUp(f, lat1, lon1, lat2, lon2);
    }
    if f.mpdLon > 0.0 && lon1 < lon2 {
      EastIsRight(f, lat1, lon1, lat2, lon2);
    }
  }

  lemma NorthIsUp(f: Frame, lat1: real, lon1: real, lat2: real, lon2: real)
    requires f.zoom > 0.0 && lat1 < lat2
    ensures ToPixel(f, lat2, lon2).top < ToPixel(f, lat1, lon1).top
  {
    var s := Scale(f.zoom);
    var d1 := (lat1 - f.centerLat) * MetresPerDegLat;
    var d2 := (lat2 - f.centerLat) * MetresPerDegLat;
    MulStrict(lat1 - f.centerLat, lat2 - f.centerLat, MetresPerDegLat);
    MulStrict(d1, d2, s);
    assert ToPixel(f, lat1, lon1).top == f.height / 2.0 - d1 * s;
    assert ToPixel(f, lat2, lon2).top == f.height / 2.0 - d2 * s;
  }

  lemma EastIsRight(f: Frame, lat1: real, lon1: real, lat2: real, lon2: real)
    requires f.zoom > 0.0 && f.mpdLon > 0.0 && lon1 < lon2
    ensures ToPixel(f, lat1, lon1).left < ToPixel(f, lat2, lon2).left
  {
    var s := Scale(f.zoom);
    var d1 := (lon1 - f.centerLon) * f.mpdLon;
    var d2 := (lon2 - f.centerLon) * f.mpdLon;
    MulStrict(lon1 - f.centerLon, lon2 - f.centerLon, f.mpdLon);
    MulStrict(d1, d2, s);
    assert ToPixel(f, lat1, lon1).left == MapWidth / 2.0 + d1 * s;
    assert ToPixel(f, lat2, lon2).left == MapWidth / 2.0 + d2 * s;
  }

  /** At zoom 1, a point `RangeMetres` east of the centre lands `EdgeMargin` pixels from the right edge. */
  lemma RangeReachesMargin(f: Frame)
    requires f.zoom == InitialZoom && f.mpdLon > 0.0
    ensures ToPixel(f, f.centerLat, f.centerLon + RangeMetres / f.mpdLon).left == MapWidth - EdgeMargin
  {
    var q := RangeMetres / f.mpdLon;
    var s := Scale(f.zoom);
    DivCancel(RangeMetres, f.mpdLon);
    assert f.centerLon + q - f.centerLon == q;
    assert ToPixel(f, f.centerLat, f.centerLon + q).left == MapWidth / 2.0 + (q * f.mpdLon) * s;
    assert s * RangeMetres == MapWidth / 2.0 - EdgeMargin;
  }

  // ------------------------------------------------------------ range rings

  const RingMetres: seq<real> := [50.0, 100.0, 200.0]

  /** The on-screen radius of the ring for `r` metres (the ring's box is `2 r scale` wide). */
  function RingRadiusPx(r: real, zoom: real): real {
    r * Scale(zoom)
  }

  /** A point `r` metres due north of the centre lies on the `r`-metre ring. */
  lemma RingMatchesProjection(f: Frame, r: real)
    ensures ToPixel(f, f.centerLat + r / MetresPerDegLat, f.centerLon).top == f.height / 2.0 - RingRadiusPx(r, f.zoom)
  {
    assert (r / MetresPerDegLat) * MetresPerDegLat == r;
  }

  // ------------------------------------------------------------ zoom

  function ZoomIn(z: real): (r: real)
    ensures r <= MaxZoom && r <= z * ZoomStep
    ensures r == MaxZoom || r == z * ZoomStep
  {
    if z * ZoomStep <= MaxZoom then z * ZoomStep else MaxZoom
  }

  function ZoomOut(z: real): (r: real)
    ensures r >= MinZoom && r >= z / ZoomStep
    ensures r == MinZoom || r == z / ZoomStep
  {
    if z / ZoomStep >= MinZoom then z / ZoomStep else MinZoom
  }

  datatype ZoomButton = Plus | Minus

  function Press(z: real, b: ZoomButton): real {
    match b
    case Plus => ZoomIn(z)
    case Minus => ZoomOut(z)
  }

  /** The zoom after pressing the buttons in order. */
  function ApplyZoom(z: real, presses: seq<ZoomButton>): real
    decreases |presses|
  {
    if |presses| == 0 then z else ApplyZoom(Press(z, presses[0]), presses[1..])
  }

  /** No sequence of presses leaves the range [0.6, 2.5]. */
  lemma {:induction false} ZoomStaysInRange(z: real, presses: seq<ZoomButton>)
    requires MinZoom <= z <= MaxZoom
    ensures MinZoom <= ApplyZoom(z, presses) <= MaxZoom
    decreases |presses|
  {
    if |presses| > 0 {
      assert MinZoom <= Press(z, presses[0]) <= MaxZoom;
      ZoomStaysInRange(Press(z, presses[0]), presses[1..]);
    }
  }

  lemma ZoomFromInitial(presses: seq<ZoomButton>)
    ensures MinZoom <= ApplyZoom(InitialZoom, presses) <= MaxZoom
  {
    ZoomStaysInRange(InitialZoom, presses);
  }

  /** Away from the limits, "+" and "−" undo each other. */
  lemma ZoomButtonsInverse(z: real)
    ensures MinZoom <= z && z * ZoomStep <= MaxZoom ==> ZoomOut(ZoomIn(z)) == z
    ensures MinZoom * ZoomStep <= z <= MaxZoom ==> ZoomIn(ZoomOut(z)) == z
  {
  }

  // ------------------------------------------------------------ markers

  datatype Shape = Triangle | Square | Circle

  /** Towers are triangles, relays squares, every other type a circle. */
  function ShapeOf(t: DeviceType): (s: Shape)
    ensures s == Triangle <==> t == Tower
    ensures s == Square <==> t == Relay
  {
    match t
    case Tower => Triangle
    case Relay => Square
    case _ => Circle
  }

  /** A device marker's colour: its status colour, overridden for collars by the threat colour. */
  function MarkerColor(d: Device, alerts: seq<Alert>): string {
    var base := StatusColor(d.status);
    if TypeOf(d) == Collar then ThreatColor(ActiveSeverityFor(d.deviceId, alerts)).GetOr(base)
    else base
  }

  /**
   * A collar with a pending P0, P1 or P2 alert shows the threat colour of its highest such
   * severity; every other marker shows its status colour.
   */
  lemma MarkerColorPrecedence(d: Device, alerts: seq<Alert>)
    ensures TypeOf(d) == Collar && (exists i :: 0 <= i < |alerts| && Pending(alerts[i], d.deviceId) && alerts[i].severity != Info)
            ==> exists s :: s != Info && IsDominant(d.deviceId, alerts, Some(s))
                            && MarkerColor(d, alerts) == ThreatColor(Some(s)).value
    ensures TypeOf(d) != Collar || (forall i :: 0 <= i < |alerts| && Pending(alerts[i], d.deviceId) ==> alerts[i].severity == Info)
            ==> MarkerColor(d, alerts) == StatusColor(d.status)
  {
    var sev := ActiveSeverityFor(d.deviceId, alerts);
    ActiveSeverityIsDominant(d.deviceId, alerts);
    if sev.Some? && sev.value == Info && TypeOf(d) == Collar {
      forall i | 0 <= i < |alerts| && Pending(alerts[i], d.deviceId)
        ensures alerts[i].severity == Info
      {
        assert Rank(alerts[i].severity) <= Rank(Info);
      }
    }
  }

  /** Width and height of a marker's box, in pixels. */
  const MarkerSize: real := 12.0

  /**
   * Where a marker's box is anchored: every marker is centred horizontally on its point; a
   * pin is also centred vertically, while a tower's triangle stands with its base on it.
   */
  function MarkerAnchor(s: Shape, p: Pixel): (a: Pixel)
    ensures a.left + MarkerSize / 2.0 == p.left
    ensures s == Triangle <==> a.top + MarkerSize == p.top
    ensures s != Triangle <==> a.top + MarkerSize / 2.0 == p.top
  {
    if s == Triangle then Pixel(p.left - 6.0, p.top - 12.0) else Pixel(p.left - 6.0, p.top - 6.0)
  }

  /** The label's anchor: up and to the right of the marker point. */
  function LabelAnchor(p: Pixel): (l: Pixel)
    ensures l.left > p.left && l.top < p.top
  {
    Pixel(p.left + 6.0, p.top - 6.0)
  }

  /**
   * The label starts where the marker's box ends, whatever the shape, and its top is level
   * with the top of a pin.
   */
  lemma LabelBesideMarker(s: Shape, p: Pixel)
    ensures LabelAnchor(p).left == MarkerAnchor(s, p).left + MarkerSize
    ensures LabelAnchor(p).top == MarkerAnchor(Circle, p).top
  {
  }

  datatype Halo = Halo(left: real, top: real, size: real, color: string)

  /** The RSSI halo: drawn only with the RSSI toggle on and a reading present, centred on the marker. */
  function HaloFor(showRssi: bool, rssi: Option<real>, p: Pixel): (h: Option<Halo>)
    ensures h.Some? <==> showRssi && rssi.Some?
    ensures h.Some? ==> && h.value.left + h.value.size / 2.0 == p.left
                        && h.value.top + h.value.size / 2.0 == p.top
                        && h.value.size == 2.0 * RssiRadius(rssi.value) as real
                        && h.value.color == RssiColor(rssi.value)
  {
    if showRssi && rssi.Some? then
      var r := RssiRadius(rssi.value) as real;
      Some(Halo(p.left - r, p.top - r, r * 2.0, RssiColor(rssi.value)))
    else None
  }

  /** A stronger reading never gets a smaller halo. */
  lemma HaloGrowsWithSignal(p: Pixel, a: real, b: real)
    requires a <= b
    ensures HaloFor(true, Some(a), p).value.size <= HaloFor(true, Some(b), p).value.size
  {
    RssiRadiusMonotone(a, b);
  }

  // ------------------------------------------------------------ camera viewer

  /** The characters `.` does not match in a JavaScript regular expression. */
  predicate IsLineTerminator(c: char) {
    var n := c as int;
    n == 0x0A || n == 0x0D || n == 0x2028 || n == 0x2029
  }

  /** What `(\?.*)?$` accepts: nothing, or `?` and then no line terminator up to the end. */
  predicate QueryTail(t: string) {
    |t| == 0 || (t[0] == '?' && forall k :: 1 <= k < |t| ==> !IsLineTerminator(t[k]))
  }

  const HlsExt: string := ".m3u8"

  ghost predicate MatchesAt(s: string, i: int) {
    0 <= i && i + |HlsExt| <= |s| && s[i..i + |HlsExt|] == HlsExt && QueryTail(s[i + |HlsExt|..])
  }

  /** The language of `/\.m3u8(\?.*)?$/` (unanchored at the start). */
  ghost predicate HlsRegex(s: string) {
    exists i :: MatchesAt(s, i)
  }

  /** The scan the regex engine performs: try each start position from `i` on. */
  function HlsFrom(s: string, i: nat): bool
    decreases |s| - i
  {
    if i + |HlsExt| > |s| then false
    else (s[i..i + |HlsExt|] == HlsExt && QueryTail(s[i + |HlsExt|..])) || HlsFrom(s, i + 1)
  }

  function IsHls(url: string): bool {
    HlsFrom(url, 0)
  }

  lemma {:induction false} HlsFromSpec(s: string, i: nat)
    ensures HlsFrom(s, i) <==> exists j :: i <= j && MatchesAt(s, j)
    decreases |s| - i
  {
    if i + |HlsExt| > |s| {
      assert forall j :: i <= j ==> !MatchesAt(s, j);
    } else {
      HlsFromSpec(s, i + 1);
      var here := s[i..i + |HlsExt|] == HlsExt && QueryTail(s[i + |HlsExt|..]);
      assert here <==> MatchesAt(s, i);
      if HlsFrom(s, i) {
        if here {
          assert MatchesAt(s, i);
        } else {
          var j :| i + 1 <= j && MatchesAt(s, j);
          assert i <= j;
        }
      }
      if exists j :: i <= j && MatchesAt(s, j) {
        var j :| i <= j && MatchesAt(s, j);
        if j != i {
          assert i + 1 <= j;
        }
      }
    }
  }

  /** The scan accepts a URL exactly when the regular expression matches it. */
  lemma IsHlsMatchesRegex(url: string)
    ensures IsHls(url) <==> HlsRegex(url)
  {
    HlsFromSpec(url, 0);
  }

  /** Any URL ending in `.m3u8` is HLS. */
  lemma HlsPlainEnding(base: string)
    ensures IsHls(base + HlsExt)
  {
    var s := base + HlsExt;
    var i := |base|;
    assert s[i..i + |HlsExt|] == HlsExt;
    assert s[i + |HlsExt|..] == [];
    assert MatchesAt(s, i);
    IsHlsMatchesRegex(s);
  }

  /** So is one where `.m3u8` is followed by a query string without a line break. */
  lemma HlsQueryEnding(base: string, query: string)
    requires forall k :: 0 <= k < |query| ==> !IsLineTerminator(query[k])
    ensures IsHls(base + HlsExt + "?" + query)
  {
    var s := base + HlsExt + "?" + query;
    var i := |base|;
    var tail := s[i + |HlsExt|..];
    assert s[i..i + |HlsExt|] == HlsExt;
    assert tail == "?" + query;
    assert forall k :: 1 <= k < |tail| ==> tail[k] == query[k - 1];
    assert QueryTail(tail);
    assert MatchesAt(s, i);
    IsHlsMatchesRegex(s);
  }

  /** A start position whose character is not `.` cannot begin a match, so the scan moves on. */
  lemma NoDotStep(s: string, i: nat)
    requires i + |HlsExt| <= |s| && s[i] != '.'
    ensures HlsFrom(s, i) == HlsFrom(s, i + 1)
  {
    assert s[i..i + |HlsExt|][0] == s[i];
  }

  /** An MP4 file is not. */
  lemma HlsRejectsMp4(c: string)
    requires c == "clip.mp4"
    ensures !IsHls(c)
  {
    assert !HlsFrom(c, 4);
    assert c[3] == 'p' && c[2] == 'i' && c[1] == 'l' && c[0] == 'c';
    NoDotStep(c, 3);
    NoDotStep(c, 2);
    NoDotStep(c, 1);
    NoDotStep(c, 0);
  }

  /** A line break in the query defeats the match, since `.` does not cross it. */
  lemma HlsRejectsBrokenQuery(s: string)
    requires s == "a.m3u8?x\ny"
    ensures !IsHls(s)
  {
    assert !HlsFrom(s, 6);
    assert s[5] == '8' && s[4] == 'u' && s[3] == '3' && s[2] == 'm' && s[0] == 'a';
    NoDotStep(s, 5);
    NoDotStep(s, 4);
    NoDotStep(s, 3);
    NoDotStep(s, 2);
    assert !QueryTail(s[6..]) by {
      assert s[6..][2] == '\n';
    }
    assert !HlsFrom(s, 1);
    NoDotStep(s, 0);
  }

  datatype FeedView = NoFeed | HlsNotice | VideoPlayer(src: string)

  /** The viewer body: no feed for an absent or empty URL, the HLS notice for `.m3u8`, else a video. */
  function FeedViewFor(c: Camera): (v: FeedView)
    ensures v == NoFeed <==> c.feedUrl.None? || c.feedUrl.value == ""
    ensures v == HlsNotice <==> c.feedUrl.Some? && c.feedUrl.value != "" && HlsRegex(c.feedUrl.value)
    ensures v.VideoPlayer? ==> v.src == c.feedUrl.value
  {
    if c.feedUrl.None? || c.feedUrl.value == "" then NoFeed
    else
      IsHlsMatchesRegex(c.feedUrl.value);
      if IsHls(c.feedUrl.value) then HlsNotice else VideoPlayer(c.feedUrl.value)
  }

  /** The "Live" pill shows exactly when there is a feed URL. */
  function ShowsLivePill(c: Camera): (b: bool)
    ensures b <==> FeedViewFor(c) != NoFeed
  {
    c.feedUrl.Some? && c.feedUrl.value != ""
  }
}

=== FILE: minichart.dfy ===
/**
 * The numeric side of the mini chart: the demo series generators (with their random
 * draws, clock and sine supplied as inputs), the acceleration bars and threshold line,
 * and the RSSI delta overlay with its spike markers.
 */
module MiniChart {
  import opened Wrappers
  import opened Seqs
  import opened Stats
  import opened Reals

  const MinuteMs: int := 60 * 1000

  function MinR(a: real, b: real): real { if a <= b then a else b }
  function MaxR(a: real, b: real): real { if a >= b then a else b }
  function AbsR(x: real): real { if x < 0.0 then -x else x }

  /** `Math.max(lo, Math.min(hi, v))`. */
  function Clamp(v: real, lo: real, hi: real): (r: real)
    requires lo <= hi
    ensures lo <= r <= hi
    ensures lo <= v <= hi ==> r == v
    ensures v > hi ==> r == hi
    ensures v < lo ==> r == lo
  {
    MaxR(lo, MinR(hi, v))
  }

  // ------------------------------------------------------------ demo series

  /** The `Math.random()` values one acceleration sample consumes. */
  datatype AccelDraw = AccelDraw(jitter: real, lift: real)

  /** The values one RSSI sample consumes: noise, the sign choice and the spike magnitude. */
  datatype RssiDraw = RssiDraw(jitter: real, sign: real, magnitude: real)

  /** `Math.random()` returns values in [0, 1). */
  predicate UnitDraw(x: real) { 0.0 <= x < 1.0 }

  /** The time of the sample taken `i` minutes before `now`. */
  function SampleTime(now: int, i: int): int { now - i * MinuteMs }

  /**
   * The acceleration value before clamping, for the sample `i` minutes back:
   * `0.2 + 0.05 sin(2 pi i / m) + noise`, plus `0.6 + 0.3 r` when an alert is near.
   * `sinTurn(x)` stands for `Math.sin(x * 2 * Math.PI)`.
   */
  function RawAccel(m: int, i: int, now: int, sinTurn: real -> real, alertFn: int -> bool,
                    dr: AccelDraw): real
    requires m > 0
  {
    var v := 0.2 + 0.05 * sinTurn(i as real / m as real) + (dr.jitter - 0.5) * 0.05;
    if alertFn(SampleTime(now, i)) then v + (0.6 + dr.lift * 0.3) else v
  }

  /**
   * `genAccelSeries(m, ...)`: one clamped sample per minute, oldest first; the k-th
   * pushed sample is taken `m - 1 - k` minutes before `now` and consumes `draw(k)`.
   */
  function GenAccelSeries(m: int, now: int, sinTurn: real -> real, alertFn: int -> bool,
                          draw: nat -> AccelDraw): (arr: seq<real>)
    ensures |arr| == Max(0, m)
    ensures forall k :: 0 <= k < |arr| ==> 0.0 <= arr[k] <= 1.2
    ensures forall k :: 0 <= k < |arr| && 0.0 <= RawAccel(m, m - 1 - k, now, sinTurn, alertFn, draw(k)) <= 1.2
              ==> arr[k] == RawAccel(m, m - 1 - k, now, sinTurn, alertFn, draw(k))
    ensures forall k :: 0 <= k < |arr| && RawAccel(m, m - 1 - k, now, sinTurn, alertFn, draw(k)) > 1.2 ==> arr[k] == 1.2
    ensures forall k :: 0 <= k < |arr| && RawAccel(m, m - 1 - k, now, sinTurn, alertFn, draw(k)) < 0.0 ==> arr[k] == 0.0
  {
    if m <= 0 then []
    else
      var arr := seq(m, k requires 0 <= k < m => Clamp(RawAccel(m, m - 1 - k, now, sinTurn, alertFn, draw(k)), 0.0, 1.2));
      assert forall k :: 0 <= k < m ==> arr[k] == Clamp(RawAccel(m, m - 1 - k, now, sinTurn, alertFn, draw(k)), 0.0, 1.2);
      arr
  }

  /**
   * With genuine random draws and a sine in [-1, 1] the clamp never changes a sample, and
   * samples near an alert (at least 0.725) are always above quiet ones (at most 0.275).
   */
  lemma AccelSeparatesAlerts(m: int, now: int, sinTurn: real -> real, alertFn: int -> bool,
                             draw: nat -> AccelDraw, k: int)
    requires 0 <= k < m
    requires -1.0 <= sinTurn((m - 1 - k) as real / m as real) <= 1.0
    requires UnitDraw(draw(k).jitter) && UnitDraw(draw(k).lift)
    ensures var arr := GenAccelSeries(m, now, sinTurn, alertFn, draw);
      && arr[k] == RawAccel(m, m - 1 - k, now, sinTurn, alertFn, draw(k))
      && (alertFn(SampleTime(now, m - 1 - k)) ==> 0.725 <= arr[k])
      && (!alertFn(SampleTime(now, m - 1 - k)) ==> arr[k] <= 0.275)
  {
    var s := sinTurn((m - 1 - k) as real / m as real);
    var dr := draw(k);
    assert -0.05 <= 0.05 * s <= 0.05;
    assert -0.025 <= (dr.jitter - 0.5) * 0.05 < 0.025;
    assert 0.0 <= dr.lift * 0.3 < 0.3;
  }

  /** The baseline the chart's RSSI series is generated around. */
  const DefaultRssiBase: real := -75.0

  /** The RSSI value before smoothing: `base + noise`, plus a signed 3..7 dB jump near an alert. */
  function RawRssi(i: int, now: int, alertFn: int -> bool, base: real, dr: RssiDraw): real {
    var r := base + (dr.jitter - 0.5) * 4.0;
    if alertFn(SampleTime(now, i)) then
      var sign := if dr.sign > 0.5 then -1.0 else 1.0;
      r + sign * (3.0 + dr.magnitude * 4.0)
    else r
  }

  function RawRssiSeries(m: int, now: int, alertFn: int -> bool, base: real,
                         draw: nat -> RssiDraw): (arr: seq<real>)
    ensures |arr| == Max(0, m)
  {
    if m <= 0 then []
    else seq(m, k requires 0 <= k < m => RawRssi(m - 1 - k, now, alertFn, base, draw(k)))
  }

  /** `genRssiSeries(m, ..., base)`: the raw series smoothed by `movavg(arr, 2)`. */
  function GenRssiSeries(m: int, now: int, alertFn: int -> bool, base: real,
                         draw: nat -> RssiDraw): (arr: seq<real>)
    ensures |arr| == Max(0, m)
  {
    MovAvg(RawRssiSeries(m, now, alertFn, base, draw), 2)
  }

  /** The smoothed RSSI series starts at the first raw value and then averages neighbouring pairs. */
  lemma RssiSeriesPairs(m: int, now: int, alertFn: int -> bool, base: real, draw: nat -> RssiDraw)
    requires m > 0
    ensures var raw := RawRssiSeries(m, now, alertFn, base, draw);
      var arr := GenRssiSeries(m, now, alertFn, base, draw);
      && arr[0] == raw[0]
      && forall k :: 1 <= k < m ==> arr[k] == (raw[k - 1] + raw[k]) / 2.0
  {
    var raw := RawRssiSeries(m, now, alertFn, base, draw);
    MovAvgFirst(raw, 2);
    forall k | 1 <= k < m
      ensures MovAvg(raw, 2)[k] == (raw[k - 1] + raw[k]) / 2.0
    {
      PairMean(raw, k);
    }
  }

  /** With genuine random draws every RSSI value stays within 9 dB of the baseline. */
  lemma RssiSeriesBounds(m: int, now: int, alertFn: int -> bool, base: real, draw: nat -> RssiDraw)
    requires forall k: nat :: k < m ==> UnitDraw(draw(k).jitter) && UnitDraw(draw(k).magnitude)
    ensures var arr := GenRssiSeries(m, now, alertFn, base, draw);
      forall k :: 0 <= k < |arr| ==> base - 9.0 <= arr[k] <= base + 9.0
  {
    var raw := RawRssiSeries(m, now, alertFn, base, draw);
    forall k | 0 <= k < |raw|
      ensures base - 9.0 <= raw[k] <= base + 9.0
    {
      var dr := draw(k);
      assert -2.0 <= (dr.jitter - 0.5) * 4.0 < 2.0;
      assert 3.0 <= 3.0 + dr.magnitude * 4.0 < 7.0;
    }
    MovAvgPreservesBounds(raw, 2, base - 9.0, base + 9.0);
  }

  // ------------------------------------------------------------ bars and threshold

  /** `Math.max(floor, ...xs)`. */
  function MaxFrom(floor: real, xs: seq<real>): (m: real)
    ensures floor <= m
    ensures forall i :: 0 <= i < |xs| ==> xs[i] <= m
    ensures m == floor || exists i :: 0 <= i < |xs| && m == xs[i]
    decreases |xs|
  {
    if |xs| == 0 then floor
    else
      var rest := MaxFrom(floor, xs[1..]);
      assert forall i :: 1 <= i < |xs| ==> xs[i] == xs[1..][i - 1];
      MaxR(xs[0], rest)
  }

  /** `Math.round`: halves round up. */
  function Round(x: real): int { (x + 0.5).Floor }

  /** Height of one acceleration bar: `max(1, round(v / accMax * ih))`. */
  function BarHeight(v: real, accMax: real, ih: real): (h: int)
    requires accMax >= 1.0
    ensures h >= 1 && h >= Round(v / accMax * ih)
    ensures h == 1 || h == Round(v / accMax * ih)
  {
    if Round(v / accMax * ih) >= 1 then Round(v / accMax * ih) else 1
  }

  /** A bar never rises above the rounded inner height (or the 1 px minimum). */
  lemma BarFitsChart(acc: seq<real>, i: int, ih: real)
    requires 0 <= i < |acc| && 0.0 <= acc[i] && 0.0 <= ih
    ensures BarHeight(acc[i], MaxFrom(1.0, acc), ih) <= if Round(ih) >= 1 then Round(ih) else 1
  {
    BarWithinHeight(acc[i], MaxFrom(1.0, acc), ih);
  }

  /** A value between 0 and the scale maximum gets a bar no taller than the rounded inner height. */
  lemma BarWithinHeight(v: real, accMax: real, ih: real)
    requires 0.0 <= v <= accMax && accMax >= 1.0 && 0.0 <= ih
    ensures BarHeight(v, accMax, ih) <= if Round(ih) >= 1 then Round(ih) else 1
  {
    var f := v / accMax;
    UnitFraction(v, accMax);
    ScaleWithin(f, ih);
    FloorMonotone(f * ih + 0.5, ih + 0.5);
  }


  const InnerLeft: real := 6.0
  const InnerRight: real := 6.0
  const InnerTop: real := 6.0
  const InnerBottom: real := 18.0

  /** The plotting area inside the chart's box: `rect.width || 600` by `rect.height || 160`, less the margins. */
  datatype Area = Area(iw: real, ih: real)

  function ChartArea(rectWidth: real, rectHeight: real): (a: Area)
    ensures rectWidth == 0.0 ==> a.iw == 588.0
    ensures rectHeight == 0.0 ==> a.ih == 136.0
    ensures rectWidth != 0.0 ==> a.iw + InnerLeft + InnerRight == rectWidth
    ensures rectHeight != 0.0 ==> a.ih + InnerTop + InnerBottom == rectHeight
    ensures rectHeight == 0.0 || rectHeight >= InnerTop + InnerBottom ==> a.ih >= 0.0
  {
    var width := if rectWidth != 0.0 then rectWidth else 600.0;
    var height := if rectHeight != 0.0 then rectHeight else 160.0;
    Area(width - InnerLeft - InnerRight, height - InnerTop - InnerBottom)
  }

  /** Bottom offset of the threshold line, `18 + qtile(acc, 0.3) / accMax * ih`; none for an empty series. */
  function ThresholdBottom(acc: seq<real>, ih: real): (b: Option<real>)
    ensures b.Some? <==> |acc| > 0
  {
    var thr := Qtile(acc, 0.3);
    if |acc| > 0 then QtileDefined(acc, 0.3); Some(InnerBottom + thr.value / MaxFrom(1.0, acc) * ih)
    else None
  }

  /** For a non-negative series the threshold line lies inside the chart's inner area. */
  lemma ThresholdInsideChart(acc: seq<real>, ih: real)
    requires |acc| > 0 && 0.0 <= ih
    requires forall i :: 0 <= i < |acc| ==> 0.0 <= acc[i]
    ensures InnerBottom <= ThresholdBottom(acc, ih).value <= InnerBottom + ih
  {
    QtileDefined(acc, 0.3);
    var thr := Qtile(acc, 0.3).value;
    var accMax := MaxFrom(1.0, acc);
    assert 0.0 <= thr <= accMax by {
      assert thr in multiset(acc);
      var j :| 0 <= j < |acc| && acc[j] == thr;
    }
    var f := thr / accMax;
    UnitFraction(thr, accMax);
    ScaleWithin(f, ih);
    assert ThresholdBottom(acc, ih).value == InnerBottom + f * ih;
  }

  // ------------------------------------------------------------ delta overlay

  /** `Math.max(1, Math.min(5, smoothW || 1))`, where a zero width counts as 1. */
  function EffectiveWindow(smoothW: int): (w: int)
    ensures 1 <= w <= 5
    ensures 1 <= smoothW <= 5 ==> w == smoothW
    ensures smoothW < 1 ==> w == 1
    ensures smoothW > 5 ==> w == 5
  {
    var s := if smoothW == 0 then 1 else smoothW;
    var c := if s <= 5 then s else 5;
    if c >= 1 then c else 1
  }

  /** `rs.map((v, i) => i === 0 ? 0 : v - rs[i - 1])`. */
  function Deltas(rs: seq<real>): (d: seq<real>)
    ensures |d| == |rs|
  {
    seq(|rs|, i requires 0 <= i < |rs| => if i == 0 then 0.0 else rs[i] - rs[i - 1])
  }

  /**
   * The overlay's deltas: the first differences of the RSSI series smoothed with the
   * effective window, starting from 0.
   */
  function SmoothedDeltas(rssi: seq<real>, smoothW: int): (d: seq<real>)
    ensures |d| == |rssi|
    ensures |rssi| > 0 ==> d[0] == 0.0
    ensures forall i :: 1 <= i < |rssi| ==>
              MovAvg(rssi, EffectiveWindow(smoothW))[i] == MovAvg(rssi, EffectiveWindow(smoothW))[i - 1] + d[i]
  {
    Deltas(MovAvg(rssi, EffectiveWindow(smoothW)))
  }

  /** A series confined to [lo, hi] has smoothed deltas of size at most hi - lo. */
  lemma SmoothedDeltasBounded(rssi: seq<real>, smoothW: int, lo: real, hi: real, i: int)
    requires forall j :: 0 <= j < |rssi| ==> lo <= rssi[j] <= hi
    requires 0 <= i < |rssi|
    ensures AbsR(SmoothedDeltas(rssi, smoothW)[i]) <= hi - lo
  {
    MovAvgPreservesBounds(rssi, EffectiveWindow(smoothW), lo, hi);
  }

  /** The deltas are the first differences: summing them back recovers the series. */
  lemma {:induction false} DeltasTelescope(rs: seq<real>, i: int)
    requires 0 <= i < |rs|
    ensures rs[0] + Sum(Deltas(rs)[..i + 1]) == rs[i]
    decreases i
  {
    var d := Deltas(rs);
    if i == 0 {
      assert d[..1] == [0.0];
      assert Sum([0.0]) == Sum([]) + 0.0;
    } else {
      DeltasTelescope(rs, i - 1);
      assert d[..i + 1][..i] == d[..i];
      assert Sum(d[..i + 1]) == Sum(d[..i]) + d[i];
    }
  }

  /** The first delta is 0 and the others are successive differences. */
  lemma DeltasShape(rs: seq<real>)
    requires |rs| > 0
    ensures Deltas(rs)[0] == 0.0
    ensures forall i :: 1 <= i < |rs| ==> rs[i] == rs[i - 1] + Deltas(rs)[i]
  {
  }

  function AbsAll(d: seq<real>): seq<real> {
    MapSeq(d, AbsR)
  }

  /** `Math.max(4, ...deltas.map(Math.abs))`: the overlay's vertical scale. */
  function MaxAbs(d: seq<real>): (m: real)
    ensures m >= 4.0
    ensures forall i :: 0 <= i < |d| ==> AbsR(d[i]) <= m
    ensures m == 4.0 || exists i :: 0 <= i < |d| && m == AbsR(d[i])
  {
    var m := MaxFrom(4.0, AbsAll(d));
    assert forall i :: 0 <= i < |d| ==> AbsAll(d)[i] == AbsR(d[i]);
    m
  }

  /** Vertical position of a delta: `top + (0.5 - d / (2 maxAbs)) ih`. */
  function PlotY(d: real, maxAbs: real, top: real, ih: real): real
    requires maxAbs > 0.0
  {
    top + (0.5 - d / (2.0 * maxAbs)) * ih
  }

  /** Every plotted delta lies in the band [top, top + ih]. */
  lemma DeltaPointsInBand(d: seq<real>, i: int, top: real, ih: real)
    requires 0 <= i < |d| && 0.0 <= ih
    ensures top <= PlotY(d[i], MaxAbs(d), top, ih) <= top + ih
  {
    var m := MaxAbs(d);
    assert -m <= d[i] <= m;
    PointInBand(d[i], m, top, ih);
  }

  lemma PointInBand(x: real, m: real, top: real, ih: real)
    requires m > 0.0 && -m <= x <= m && 0.0 <= ih
    ensures top <= PlotY(x, m, top, ih) <= top + ih
  {
    BandFraction(x, m);
    ScaleWithin(0.5 - x / (2.0 * m), ih);
  }

  /** A delta within `[-m, m]` sits at a fraction in [0, 1] of the band, measured from its top. */
  lemma BandFraction(x: real, m: real)
    requires m > 0.0 && -m <= x <= m
    ensures 0.0 <= 0.5 - x / (2.0 * m) <= 1.0
  {
    assert x / (2.0 * m) * (2.0 * m) == x;
  }


  /**
   * Horizontal position of point `i`: `left + i / (minutes - 1) * iw`. A one-minute chart
   * divides 0 by 0; the model returns `None` for that NaN.
   */
  function PlotX(i: int, minutes: int, left: real, iw: real): (x: Option<real>)
    requires 0 <= i < minutes
    ensures x.None? <==> minutes == 1
  {
    if minutes == 1 then None
    else Some(left + (i as real / (minutes - 1) as real) * iw)
  }

  /** With at least two minutes, points run from `left` to `left + iw` in index order. */
  lemma PlotXSpansWidth(i: int, j: int, minutes: int, left: real, iw: real)
    requires minutes >= 2 && 0 <= i < j < minutes && iw > 0.0
    ensures PlotX(0, minutes, left, iw) == Some(left)
    ensures PlotX(minutes - 1, minutes, left, iw) == Some(left + iw)
    ensures PlotX(i, minutes, left, iw).value < PlotX(j, minutes, left, iw).value
  {
    var n := (minutes - 1) as real;
    assert (0 as real / n) == 0.0;
    assert ((minutes - 1) as real / n) == 1.0;
    FractionIncreases(i as real, j as real, n);
    MulStrict(i as real / n, j as real / n, iw);
  }

  datatype SpikeLabel = Bunch | Flight

  /** A delta of magnitude at least the threshold is a spike: bunching if positive, else flight. */
  function SpikeAt(d: real, thresh: real): (s: Option<SpikeLabel>)
    ensures s.Some? <==> AbsR(d) >= thresh
    ensures s == Some(Bunch) ==> d > 0.0
    ensures s == Some(Flight) ==> d <= 0.0
  {
    if AbsR(d) >= thresh then Some(if d > 0.0 then Bunch else Flight) else None
  }

  datatype SpikeMark = SpikeMark(index: int, kind: SpikeLabel)

  /** The spike markers for `deltas[from..]`, in index order. */
  function SpikesFrom(d: seq<real>, thresh: real, from: nat): (r: seq<SpikeMark>)
    requires from <= |d|
    ensures forall k :: 0 <= k < |r| ==> from <= r[k].index < |d| && SpikeAt(d[r[k].index], thresh) == Some(r[k].kind)
    ensures forall k, l :: 0 <= k < l < |r| ==> r[k].index < r[l].index
    decreases |d| - from
  {
    if from == |d| then []
    else
      var rest := SpikesFrom(d, thresh, from + 1);
      match SpikeAt(d[from], thresh)
      case Some(l) =>
        var r := [SpikeMark(from, l)] + rest;
        assert forall k :: 1 <= k < |r| ==> r[k] == rest[k - 1];
        r
      case None => rest
  }

  /** Every spike at or after `from` gets a marker. */
  lemma {:induction false} SpikesFromComplete(d: seq<real>, thresh: real, from: nat, i: int)
    requires from <= i < |d| && SpikeAt(d[i], thresh).Some?
    ensures exists k :: 0 <= k < |SpikesFrom(d, thresh, from)| && SpikesFrom(d, thresh, from)[k].index == i
    decreases |d| - from
  {
    var r := SpikesFrom(d, thresh, from);
    var rest := SpikesFrom(d, thresh, from + 1);
    if i == from {
      assert r[0].index == i;
    } else {
      SpikesFromComplete(d, thresh, from + 1, i);
      var k :| 0 <= k < |rest| && rest[k].index == i;
      if SpikeAt(d[from], thresh).Some? {
        assert r[k + 1] == rest[k];
      } else {
        assert r[k] == rest[k];
      }
    }
  }

  /** A delta gets a spike marker exactly when its magnitude reaches the threshold. */
  lemma SpikesExactly(d: seq<real>, thresh: real, i: int)
    requires 0 <= i < |d|
    ensures (exists k :: 0 <= k < |Spikes(d, thresh)| && Spikes(d, thresh)[k].index == i)
            <==> AbsR(d[i]) >= thresh
  {
    var r := SpikesFrom(d, thresh, 0);
    assert Spikes(d, thresh) == r;
    if AbsR(d[i]) >= thresh {
      SpikesFromComplete(d, thresh, 0, i);
    } else {
      forall k | 0 <= k < |r|
        ensures r[k].index != i
      {
        assert SpikeAt(d[r[k].index], thresh).Some?;
      }
    }
  }

  /** The spike markers of the whole delta series (`highlightSpikes` on). */
  function Spikes(d: seq<real>, thresh: real): seq<SpikeMark> {
    SpikesFrom(d, thresh, 0)
  }

  /**
   * A spike threshold above the width of the band the series stays in marks nothing: the
   * overlay of such a series shows no spike markers.
   */
  lemma NoSpikesWithinNarrowBand(rssi: seq<real>, smoothW: int, lo: real, hi: real, thresh: real)
    requires forall j :: 0 <= j < |rssi| ==> lo <= rssi[j] <= hi
    requires thresh > hi - lo
    ensures Spikes(SmoothedDeltas(rssi, smoothW), thresh) == []
  {
    var d := SmoothedDeltas(rssi, smoothW);
    var r := Spikes(d, thresh);
    if |r| > 0 {
      var i := r[0].index;
      SmoothedDeltasBounded(rssi, smoothW, lo, hi, i);
      assert false;
    }
  }

  /** Worked case: threshold 5 over deltas [0, 6, -2, -7] marks 1 as bunching and 3 as flight. */
  lemma SpikesExample(d: seq<real>)
    requires d == [0.0, 6.0, -2.0, -7.0]
    ensures Spikes(d, 5.0) == [SpikeMark(1, Bunch), SpikeMark(3, Flight)]
  {
    assert SpikesFrom(d, 5.0, 4) == [];
    assert SpikesFrom(d, 5.0, 3) == [SpikeMark(3, Flight)];
    assert SpikesFrom(d, 5.0, 2) == [SpikeMark(3, Flight)];
    assert SpikesFrom(d, 5.0, 1) == [SpikeMark(1, Bunch), SpikeMark(3, Flight)];
  }
}

=== FILE: reals.dfy ===
/**
 * Small facts about products and quotients of reals, kept apart so that each is proved
 * in a context holding nothing else.
 */
module Reals {

  lemma MulPos(x: real, y: real)
    requires x > 0.0 && y > 0.0
    ensures x * y > 0.0
  {
  }

  lemma MulNonNeg(a: real, b: real)
    requires 0.0 <= a && 0.0 <= b
    ensures 0.0 <= a * b
  {
  }

  /** Multiplying by a positive factor keeps a strict order. */
  lemma MulStrict(a: real, b: real, c: real)
    requires a < b && c > 0.0
    ensures a * c < b * c
  {
    MulPos(b - a, c);
    assert b * c - a * c == (b - a) * c;
  }

  /** Dividing by a non-zero number and multiplying back is the identity. */
  lemma DivCancel(a: real, b: real)
    requires b != 0.0
    ensures a / b * b == a
  {
  }

  /** A value between 0 and a positive bound, divided by the bound, lies in [0, 1]. */
  lemma UnitFraction(v: real, bound: real)
    requires 0.0 <= v <= bound && bound > 0.0
    ensures 0.0 <= v / bound <= 1.0
  {
    assert v / bound * bound == v;
  }

  /** Scaling a non-negative length by a fraction in [0, 1] keeps it within [0, length]. */
  lemma ScaleWithin(f: real, len: real)
    requires 0.0 <= f <= 1.0 && 0.0 <= len
    ensures 0.0 <= f * len <= len
  {
    assert len - f * len == (1.0 - f) * len;
  }

  lemma FractionIncreases(a: real, b: real, n: real)
    requires a < b && n > 0.0
    ensures a / n < b / n
  {
    assert b / n - a / n == (b - a) / n;
  }
}

=== FILE: seqs.dfy ===
/** Order-preserving filtering of sequences (JavaScript's `Array.prototype.filter`). */
module Seqs {

  /** The elements of `xs` that satisfy `p`, in their original order. */
  function Filter<T>(xs: seq<T>, p: T -> bool): (r: seq<T>)
    ensures |r| <= |xs|
    ensures forall i :: 0 <= i < |r| ==> p(r[i])
  {
    if |xs| == 0 then []
    else
      assert xs == [xs[0]] + xs[1..];
      if p(xs[0]) then [xs[0]] + Filter(xs[1..], p)
      else Filter(xs[1..], p)
  }

  /** Number of elements of `xs` that satisfy `p`. */
  function Count<T>(xs: seq<T>, p: T -> bool): nat {
    |Filter(xs, p)|
  }

  /** `a` can be obtained from `b` by deleting elements: an order-preserving subsequence. */
  ghost predicate IsSubsequence<T>(a: seq<T>, b: seq<T>)
    decreases |b|
  {
    if |a| == 0 then true
    else if |b| == 0 then false
    else (a[0] == b[0] && IsSubsequence(a[1..], b[1..])) || IsSubsequence(a, b[1..])
  }

  lemma {:induction false} FilterIsSubsequence<T>(xs: seq<T>, p: T -> bool)
    ensures IsSubsequence(Filter(xs, p), xs)
    decreases |xs|
  {
    if |xs| > 0 {
      FilterIsSubsequence(xs[1..], p);
      var r := Filter(xs, p);
      if p(xs[0]) {
        assert r[0] == xs[0] && r[1..] == Filter(xs[1..], p);
      } else if |r| > 0 {
        assert r == Filter(xs[1..], p);
      }
    }
  }

  /** Filtering is sound and complete: it keeps exactly the elements satisfying `p`. */
  lemma {:induction false} FilterMembership<T>(xs: seq<T>, p: T -> bool, x: T)
    ensures x in Filter(xs, p) <==> x in xs && p(x)
    decreases |xs|
  {
    if |xs| > 0 {
      FilterMembership(xs[1..], p, x);
      assert xs == [xs[0]] + xs[1..];
    }
  }

  /** Filtering removes elements but never duplicates one. */
  lemma {:induction false} FilterSubMultiset<T>(xs: seq<T>, p: T -> bool)
    ensures multiset(Filter(xs, p)) <= multiset(xs)
    decreases |xs|
  {
    if |xs| > 0 {
      FilterSubMultiset(xs[1..], p);
      assert xs == [xs[0]] + xs[1..];
    }
  }

  /**
   * Filtering keeps every copy of a qualifying element and no copy of any other: the
   * multiplicity of `x` in the result is its multiplicity in `xs` when `p(x)`, else zero.
   */
  lemma {:induction false} FilterMultiplicity<T>(xs: seq<T>, p: T -> bool, x: T)
    ensures multiset(Filter(xs, p))[x] == if p(x) then multiset(xs)[x] else 0
    decreases |xs|
  {
    if |xs| > 0 {
      FilterMultiplicity(xs[1..], p, x);
      assert xs == [xs[0]] + xs[1..];
      assert multiset(xs) == multiset{xs[0]} + multiset(xs[1..]);
      if p(xs[0]) {
        assert Filter(xs, p) == [xs[0]] + Filter(xs[1..], p);
      }
    }
  }

  lemma FilterCons<T>(a: T, rest: seq<T>, p: T -> bool)
    ensures Filter([a] + rest, p) == if p(a) then [a] + Filter(rest, p) else Filter(rest, p)
  {
    assert ([a] + rest)[0] == a && ([a] + rest)[1..] == rest;
  }

  /** Counting over a sequence with a first element. */
  lemma CountCons<T>(a: T, rest: seq<T>, p: T -> bool)
    ensures Count([a] + rest, p) == (if p(a) then 1 else 0) + Count(rest, p)
  {
    FilterCons(a, rest, p);
  }

  /** Filtering distributes over concatenation. */
  lemma {:induction false} FilterAppend<T>(a: seq<T>, b: seq<T>, p: T -> bool)
    ensures Filter(a + b, p) == Filter(a, p) + Filter(b, p)
    decreases |a|
  {
    if |a| == 0 {
      assert a + b == b;
    } else {
      assert (a + b)[0] == a[0];
      assert (a + b)[1..] == a[1..] + b;
      FilterAppend(a[1..], b, p);
    }
  }

  /** A filter that rejects nothing returns its input unchanged. */
  lemma {:induction false} FilterAll<T>(xs: seq<T>, p: T -> bool)
    requires forall i :: 0 <= i < |xs| ==> p(xs[i])
    ensures Filter(xs, p) == xs
    decreases |xs|
  {
    if |xs| > 0 {
      FilterAll(xs[1..], p);
    }
  }

  /** Filtering twice by the same predicate is filtering once. */
  lemma FilterIdempotent<T>(xs: seq<T>, p: T -> bool)
    ensures Filter(Filter(xs, p), p) == Filter(xs, p)
  {
    FilterAll(Filter(xs, p), p);
  }

  /** Splitting by a predicate and its negation accounts for every element exactly once. */
  lemma {:induction false} CountSplit<T>(xs: seq<T>, p: T -> bool, q: T -> bool)
    requires forall x :: q(x) == !p(x)
    ensures Count(xs, p) + Count(xs, q) == |xs|
    decreases |xs|
  {
    if |xs| > 0 {
      CountSplit(xs[1..], p, q);
    }
  }

  /** Two predicates that agree on every element select the same subsequence. */
  lemma {:induction false} FilterCongruent<T>(xs: seq<T>, p: T -> bool, q: T -> bool)
    requires forall i :: 0 <= i < |xs| ==> p(xs[i]) == q(xs[i])
    ensures Filter(xs, p) == Filter(xs, q)
    decreases |xs|
  {
    if |xs| > 0 {
      FilterCongruent(xs[1..], p, q);
    }
  }

  /** `xs.map(f)`. */
  function MapSeq<A, B>(xs: seq<A>, f: A -> B): (r: seq<B>)
    ensures |r| == |xs|
    ensures forall i :: 0 <= i < |xs| ==> r[i] == f(xs[i])
  {
    seq(|xs|, i requires 0 <= i < |xs| => f(xs[i]))
  }

  lemma MapSeqMembership<A, B>(xs: seq<A>, f: A -> B, y: B)
    ensures y in MapSeq(xs, f) <==> exists i :: 0 <= i < |xs| && f(xs[i]) == y
  {
    var r := MapSeq(xs, f);
    if y in r {
      var i :| 0 <= i < |r| && r[i] == y;
      assert f(xs[i]) == y;
    }
  }
}

=== FILE: signal.dfy ===
/**
 * Classification utilities of `misc.ts`: RSSI buckets (halo colour and radius), status
 * colours, severity-to-threat colours and the dominant unacknowledged severity of a device.
 */
module Signal {
  import opened Wrappers
  import opened Types
  import opened Seqs

  const RssiGood: string := "rgba(34,197,94,0.28)"
  const RssiFair: string := "rgba(245,158,11,0.28)"
  const RssiPoor: string := "rgba(239,68,68,0.28)"

  /** Halo colour: green from -65 dBm up, amber on [-80, -65), red below -80. */
  function RssiColor(rssi: real): (c: string)
    ensures c == RssiGood <==> rssi >= -65.0
    ensures c == RssiFair <==> -80.0 <= rssi < -65.0
    ensures c == RssiPoor <==> rssi < -80.0
  {
    if rssi >= -65.0 then RssiGood
    else if rssi >= -80.0 then RssiFair
    else RssiPoor
  }

  /** Halo radius for the same three buckets. */
  function RssiRadius(rssi: real): (r: int)
    ensures r == 44 || r == 32 || r == 22
  {
    if rssi >= -65.0 then 44 else if rssi >= -80.0 then 32 else 22
  }

  /** Colour and radius use the same buckets: two readings share a colour iff they share a radius. */
  lemma RssiRadiusAgreesWithColor(a: real, b: real)
    ensures RssiColor(a) == RssiColor(b) <==> RssiRadius(a) == RssiRadius(b)
    ensures RssiRadius(a) == 44 <==> RssiColor(a) == RssiGood
    ensures RssiRadius(a) == 32 <==> RssiColor(a) == RssiFair
    ensures RssiRadius(a) == 22 <==> RssiColor(a) == RssiPoor
  {
  }

  /** A stronger signal never gets a smaller halo. */
  lemma RssiRadiusMonotone(a: real, b: real)
    requires a <= b
    ensures RssiRadius(a) <= RssiRadius(b)
  {
  }

  const OnlineColor: string := "#16a34a"
  const InactiveColor: string := "#9ca3af"
  const OfflineColor: string := "#ef4444"

  function StatusColor(s: Status): (c: string)
    ensures c == OnlineColor <==> s == Online
    ensures c == InactiveColor <==> s == Inactive
    ensures c == OfflineColor <==> s == Offline
  {
    assert OnlineColor[1] != OfflineColor[1] && InactiveColor[1] != OfflineColor[1];
    assert OnlineColor[1] != InactiveColor[1];
    match s
    case Online => OnlineColor
    case Inactive => InactiveColor
    case Offline => OfflineColor
  }

  /** Threat colour of a severity; `None` (no override) for INFO and for an absent severity. */
  function ThreatColor(sev: Option<Severity>): (c: Option<string>)
    ensures c.Some? <==> sev.Some? && sev.value != Info
  {
    match sev
    case Some(P0) => Some("#ef4444")
    case Some(P1) => Some("#f59e0b")
    case Some(P2) => Some("#facc15")
    case _ => None
  }

  /** P0, P1 and P2 get three different threat colours. */
  lemma ThreatColorsDistinct(a: Severity, b: Severity)
    requires a != Info && b != Info && a != b
    ensures ThreatColor(Some(a)) != ThreatColor(Some(b))
  {
  }

  /** A P0 threat is drawn in the same colour as an offline device. */
  lemma P0ThreatMatchesOffline()
    ensures ThreatColor(Some(P0)) == Some(StatusColor(Offline))
  {
  }

  /** Priority order P0 > P1 > P2 > INFO. */
  function Rank(s: Severity): (n: nat)
    ensures n <= 3
  {
    match s
    case P0 => 3
    case P1 => 2
    case P2 => 1
    case Info => 0
  }

  lemma RankInjective(a: Severity, b: Severity)
    ensures Rank(a) == Rank(b) ==> a == b
  {
  }

  /** An alert that is still unacknowledged and belongs to device `id`. */
  predicate Pending(a: Alert, id: string) {
    a.deviceId == id && !a.acked
  }

  function PendingFor(id: string): Alert -> bool {
    a => Pending(a, id)
  }

  /** The left-to-right scan of `activeSeverityFor`, with the best severity so far in `best`. */
  function ScanSeverity(id: string, alerts: seq<Alert>, best: Option<Severity>): Option<Severity>
    decreases |alerts|
  {
    if |alerts| == 0 then best
    else
      var a := alerts[0];
      var best' := if Pending(a, id) && (best.None? || Rank(a.severity) > Rank(best.value))
                   then Some(a.severity) else best;
      ScanSeverity(id, alerts[1..], best')
  }

  /** `activeSeverityFor(deviceId, alerts)`. */
  function ActiveSeverityFor(id: string, alerts: seq<Alert>): Option<Severity> {
    ScanSeverity(id, alerts, None)
  }

  /**
   * `r` is the dominant unacknowledged severity of device `id`: absent iff no such alert
   * exists, otherwise the severity of one of them and ranked at least as high as all of them.
   */
  ghost predicate IsDominant(id: string, alerts: seq<Alert>, r: Option<Severity>) {
    && (r.None? <==> forall i :: 0 <= i < |alerts| ==> !Pending(alerts[i], id))
    && (r.Some? ==> exists i :: 0 <= i < |alerts| && Pending(alerts[i], id) && alerts[i].severity == r.value)
    && (r.Some? ==> forall i :: 0 <= i < |alerts| && Pending(alerts[i], id) ==> Rank(alerts[i].severity) <= Rank(r.value))
  }

  lemma {:induction false} ScanSeveritySpec(id: string, alerts: seq<Alert>, best: Option<Severity>)
    ensures var r := ScanSeverity(id, alerts, best);
      && (r.None? <==> best.None? && forall i :: 0 <= i < |alerts| ==> !Pending(alerts[i], id))
      && (r.Some? ==> r == best || exists i :: 0 <= i < |alerts| && Pending(alerts[i], id) && alerts[i].severity == r.value)
      && (best.Some? ==> r.Some? && Rank(best.value) <= Rank(r.value))
      && (r.Some? ==> forall i :: 0 <= i < |alerts| && Pending(alerts[i], id) ==> Rank(alerts[i].severity) <= Rank(r.value))
    decreases |alerts|
  {
    if |alerts| > 0 {
      var a := alerts[0];
      var best' := if Pending(a, id) && (best.None? || Rank(a.severity) > Rank(best.value))
                   then Some(a.severity) else best;
      ScanSeveritySpec(id, alerts[1..], best');
      var r := ScanSeverity(id, alerts, best);
      assert r == ScanSeverity(id, alerts[1..], best');
      forall i | 1 <= i < |alerts|
        ensures alerts[i] == alerts[1..][i - 1]
      {
      }
      if r.Some? && r != best && r != best' {
        var j :| 0 <= j < |alerts[1..]| && Pending(alerts[1..][j], id) && alerts[1..][j].severity == r.value;
        assert alerts[j + 1] == alerts[1..][j];
      }
    }
  }

  /** `activeSeverityFor` returns exactly the dominant unacknowledged severity. */
  lemma ActiveSeverityIsDominant(id: string, alerts: seq<Alert>)
    ensures IsDominant(id, alerts, ActiveSeverityFor(id, alerts))
  {
    ScanSeveritySpec(id, alerts, None);
  }

  /** The dominant severity is unique, so any other computation of it agrees with the scan. */
  lemma DominantUnique(id: string, alerts: seq<Alert>, r1: Option<Severity>, r2: Option<Severity>)
    requires IsDominant(id, alerts, r1) && IsDominant(id, alerts, r2)
    ensures r1 == r2
  {
    if r1.Some? && r2.Some? {
      var i :| 0 <= i < |alerts| && Pending(alerts[i], id) && alerts[i].severity == r1.value;
      var j :| 0 <= j < |alerts| && Pending(alerts[j], id) && alerts[j].severity == r2.value;
      RankInjective(r1.value, r2.value);
    }
  }

  /** Inserting an acknowledged alert, or one of another device, anywhere does not change the result. */
  lemma ActiveSeverityIgnoresIrrelevant(id: string, alerts: seq<Alert>, a: Alert, k: nat)
    requires k <= |alerts| && !Pending(a, id)
    ensures ActiveSeverityFor(id, alerts[..k] + [a] + alerts[k..]) == ActiveSeverityFor(id, alerts)
  {
    var ext := alerts[..k] + [a] + alerts[k..];
    ActiveSeverityIsDominant(id, alerts);
    ActiveSeverityIsDominant(id, ext);
    var r := ActiveSeverityFor(id, alerts);
    assert forall i :: 0 <= i < k ==> ext[i] == alerts[i];
    assert forall i :: k < i < |ext| ==> ext[i] == alerts[i - 1];
    assert forall i :: k <= i < |alerts| ==> ext[i + 1] == alerts[i];
    assert ext[k] == a;
    if r.Some? {
      var j :| 0 <= j < |alerts| && Pending(alerts[j], id) && alerts[j].severity == r.value;
      if j < k { assert ext[j] == alerts[j]; } else { assert ext[j + 1] == alerts[j]; }
    }
    DominantUnique(id, ext, ActiveSeverityFor(id, ext), r);
  }

  /** Worked case: P0 is acknowledged, so the pending P2 and P1 give P1. */
  lemma ActiveSeverityExample(x: Alert)
    ensures ActiveSeverityFor("d1", [x.(severity := P2, deviceId := "d1", acked := false),
                                     x.(severity := P0, deviceId := "d1", acked := true),
                                     x.(severity := P1, deviceId := "d1", acked := false)]) == Some(P1)
  {
    var xs := [x.(severity := P2, deviceId := "d1", acked := false),
               x.(severity := P0, deviceId := "d1", acked := true),
               x.(severity := P1, deviceId := "d1", acked := false)];
    ActiveSeverityIsDominant("d1", xs);
    assert Pending(xs[2], "d1") && xs[2].severity == P1;
    DominantUnique("d1", xs, ActiveSeverityFor("d1", xs), Some(P1));
  }
}

=== FILE: sorting.dfy ===
/**
 * Stable sorting by a real-valued key, as done by JavaScript's `Array.prototype.sort`
 * with a comparator `(a, b) => key(a) - key(b)` (the language requires the sort to be
 * stable since ECMAScript 2019). Modelled as insertion sort; the lemmas below show that
 * the result is sorted, a permutation of the input, and keeps the input order among
 * elements with equal keys.
 */
module StableSort {
  import opened Seqs

  ghost predicate SortedBy<T>(s: seq<T>, key: T -> real) {
    forall i, j :: 0 <= i < j < |s| ==> key(s[i]) <= key(s[j])
  }

  /** The elements of `s` whose key equals `k`, in order. */
  function KeyClass<T>(s: seq<T>, key: T -> real, k: real): seq<T> {
    Filter(s, HasKey(key, k))
  }

  function HasKey<T>(key: T -> real, k: real): T -> bool {
    x => key(x) == k
  }

  /** Stability: every class of equal keys appears in the same order in `a` as in `b`. */
  ghost predicate SameKeyClasses<T>(a: seq<T>, b: seq<T>, key: T -> real) {
    forall k :: KeyClass(a, key, k) == KeyClass(b, key, k)
  }

  /** Inserts `x` after every element whose key is at most `key(x)`. */
  function Insert<T>(x: T, s: seq<T>, key: T -> real): (r: seq<T>)
    ensures |r| == |s| + 1
    ensures multiset(r) == multiset(s) + multiset{x}
  {
    if |s| == 0 then [x]
    else if key(s[0]) <= key(x) then
      assert s == [s[0]] + s[1..];
      [s[0]] + Insert(x, s[1..], key)
    else
      [x] + s
  }

  /** Insertion sort of `xs`, taking elements from left to right. */
  function SortBy<T>(xs: seq<T>, key: T -> real): (r: seq<T>)
    ensures |r| == |xs|
    ensures multiset(r) == multiset(xs)
  {
    if |xs| == 0 then []
    else
      assert xs == xs[..|xs| - 1] + [xs[|xs| - 1]];
      Insert(xs[|xs| - 1], SortBy(xs[..|xs| - 1], key), key)
  }

  ghost predicate KeysAtLeast<T>(s: seq<T>, key: T -> real, b: real) {
    forall i :: 0 <= i < |s| ==> b <= key(s[i])
  }

  lemma {:induction false} InsertKeysAtLeast<T>(x: T, s: seq<T>, key: T -> real, b: real)
    requires KeysAtLeast(s, key, b) && b <= key(x)
    ensures KeysAtLeast(Insert(x, s, key), key, b)
    decreases |s|
  {
    if |s| > 0 && key(s[0]) <= key(x) {
      InsertKeysAtLeast(x, s[1..], key, b);
    }
  }

  /** Inserting into a sorted sequence keeps it sorted. */
  lemma {:induction false} InsertSorted<T>(x: T, s: seq<T>, key: T -> real)
    requires SortedBy(s, key)
    ensures SortedBy(Insert(x, s, key), key)
    decreases |s|
  {
    if |s| > 0 && key(s[0]) <= key(x) {
      InsertSorted(x, s[1..], key);
      InsertKeysAtLeast(x, s[1..], key, key(s[0]));
      var r := Insert(x, s, key);
      assert r == [s[0]] + Insert(x, s[1..], key);
    }
  }

  /** The result of the sort is in ascending key order. */
  lemma {:induction false} SortBySorted<T>(xs: seq<T>, key: T -> real)
    ensures SortedBy(SortBy(xs, key), key)
    decreases |xs|
  {
    if |xs| > 0 {
      SortBySorted(xs[..|xs| - 1], key);
      InsertSorted(xs[|xs| - 1], SortBy(xs[..|xs| - 1], key), key);
    }
  }

  lemma FilterNone<T>(s: seq<T>, p: T -> bool)
    requires forall i :: 0 <= i < |s| ==> !p(s[i])
    ensures Filter(s, p) == []
    decreases |s|
  {
    if |s| > 0 {
      FilterNone(s[1..], p);
    }
  }

  /** `[x]` when `x` belongs to the class of key `k`, otherwise empty. */
  function ClassOf<T>(x: T, key: T -> real, k: real): seq<T> {
    if key(x) == k then [x] else []
  }

  lemma {:induction false} InsertKeyClass<T>(x: T, s: seq<T>, key: T -> real, k: real)
    requires SortedBy(s, key)
    ensures KeyClass(Insert(x, s, key), key, k) == KeyClass(s, key, k) + ClassOf(x, key, k)
    decreases |s|
  {
    var p := HasKey(key, k);
    if |s| == 0 {
      assert Insert(x, s, key) == [x];
      SingletonKeyClass(x, key, k);
    } else if key(s[0]) <= key(x) {
      var rest := Insert(x, s[1..], key);
      assert Insert(x, s, key) == [s[0]] + rest;
      assert KeyClass(rest, key, k) == KeyClass(s[1..], key, k) + ClassOf(x, key, k) by {
        SortedByTail(s, key);
        InsertKeyClass(x, s[1..], key, k);
      }
      ConsKeepsSuffix(s[0], rest, s[1..], ClassOf(x, key, k), p);
      assert s == [s[0]] + s[1..];
    } else {
      assert Insert(x, s, key) == [x] + s;
      FilterCons(x, s, p);
      if key(x) == k {
        AboveKeyClassEmpty(s, key, k);
      }
    }
  }

  /** A sorted sequence whose keys all exceed `k` has an empty class for `k`. */
  lemma AboveKeyClassEmpty<T>(s: seq<T>, key: T -> real, k: real)
    requires |s| > 0 && SortedBy(s, key) && k < key(s[0])
    ensures KeyClass(s, key, k) == []
  {
    var p := HasKey(key, k);
    forall i | 0 <= i < |s|
      ensures !p(s[i])
    {
      assert key(s[0]) <= key(s[i]);
    }
    FilterNone(s, p);
  }

  lemma SortedByTail<T>(s: seq<T>, key: T -> real)
    requires |s| > 0 && SortedBy(s, key)
    ensures SortedBy(s[1..], key)
  {
    forall i, j | 0 <= i < j < |s| - 1
      ensures key(s[1..][i]) <= key(s[1..][j])
    {
      assert s[1..][i] == s[i + 1] && s[1..][j] == s[j + 1];
    }
  }

  lemma ConsKeepsSuffix<T>(a: T, r: seq<T>, s: seq<T>, tail: seq<T>, p: T -> bool)
    requires Filter(r, p) == Filter(s, p) + tail
    ensures Filter([a] + r, p) == Filter([a] + s, p) + tail
  {
    var fs := Filter(s, p);
    FilterCons(a, r, p);
    FilterCons(a, s, p);
    if p(a) {
      assert Filter([a] + r, p) == [a] + (fs + tail);
      assert Filter([a] + s, p) == [a] + fs;
      SeqAssoc([a], fs, tail);
    }
  }

  lemma SeqAssoc<T>(a: seq<T>, b: seq<T>, c: seq<T>)
    ensures a + (b + c) == (a + b) + c
  {
  }

  /** The sort is stable: within each class of equal keys, input order is kept. */
  lemma SortByStable<T>(xs: seq<T>, key: T -> real)
    ensures SameKeyClasses(SortBy(xs, key), xs, key)
  {
    forall k
      ensures KeyClass(SortBy(xs, key), key, k) == KeyClass(xs, key, k)
    {
      SortByStableAt(xs, key, k);
    }
  }

  lemma {:induction false} SortByStableAt<T>(xs: seq<T>, key: T -> real, k: real)
    ensures KeyClass(SortBy(xs, key), key, k) == KeyClass(xs, key, k)
    decreases |xs|
  {
    if |xs| > 0 {
      var init := xs[..|xs| - 1];
      var last := xs[|xs| - 1];
      var sorted := SortBy(init, key);
      calc {
        KeyClass(SortBy(xs, key), key, k);
        { assert SortBy(xs, key) == Insert(last, sorted, key); }
        KeyClass(Insert(last, sorted, key), key, k);
        { SortBySorted(init, key); InsertKeyClass(last, sorted, key, k); }
        KeyClass(sorted, key, k) + ClassOf(last, key, k);
        { SortByStableAt(init, key, k); }
        KeyClass(init, key, k) + ClassOf(last, key, k);
        { SingletonKeyClass(last, key, k); }
        KeyClass(init, key, k) + KeyClass([last], key, k);
        { FilterAppend(init, [last], HasKey(key, k)); }
        KeyClass(init + [last], key, k);
        { assert init + [last] == xs; }
        KeyClass(xs, key, k);
      }
    }
  }

  lemma SingletonKeyClass<T>(x: T, key: T -> real, k: real)
    ensures KeyClass([x], key, k) == ClassOf(x, key, k)
  {
    FilterCons(x, [], HasKey(key, k));
    assert [x] + [] == [x];
  }

  /** An input already sorted by its key is returned unchanged. */
  lemma {:induction false} SortBySortedIsIdentity<T>(xs: seq<T>, key: T -> real)
    requires SortedBy(xs, key)
    ensures SortBy(xs, key) == xs
    decreases |xs|
  {
    if |xs| > 0 {
      var init := xs[..|xs| - 1];
      var last := xs[|xs| - 1];
      SortBySortedIsIdentity(init, key);
      InsertAtEnd(last, init, key);
      assert init + [last] == xs;
    }
  }

  lemma {:induction false} InsertAtEnd<T>(x: T, s: seq<T>, key: T -> real)
    requires SortedBy(s, key)
    requires forall i :: 0 <= i < |s| ==> key(s[i]) <= key(x)
    ensures Insert(x, s, key) == s + [x]
    decreases |s|
  {
    if |s| > 0 {
      InsertAtEnd(x, s[1..], key);
      assert s == [s[0]] + s[1..];
    }
  }

  // ---------------------------------------------------------------- plain reals

  function Id(x: real): real { x }

  /** `SortBy` with the identity key: ascending numeric sort of reals. */
  function SortReals(xs: seq<real>): (r: seq<real>)
    ensures |r| == |xs|
    ensures forall i, j :: 0 <= i < j < |r| ==> r[i] <= r[j]
    ensures multiset(r) == multiset(xs)
  {
    var r := SortBy(xs, Id);
    SortBySorted(xs, Id);
    assert forall i, j :: 0 <= i < j < |r| ==> Id(r[i]) <= Id(r[j]);
    r
  }

  lemma SortedHeadIsMin(a: seq<real>, x: real)
    requires |a| > 0
    requires forall i, j :: 0 <= i < j < |a| ==> a[i] <= a[j]
    requires x in multiset(a)
    ensures a[0] <= x
  {
    assert x in a;
  }

  ghost predicate Ascending(a: seq<real>) {
    forall i, j :: 0 <= i < j < |a| ==> a[i] <= a[j]
  }

  lemma AscendingTail(a: seq<real>)
    requires |a| > 0 && Ascending(a)
    ensures Ascending(a[1..])
  {
    forall i, j | 0 <= i < j < |a| - 1
      ensures a[1..][i] <= a[1..][j]
    {
      assert a[1..][i] == a[i + 1] && a[1..][j] == a[j + 1];
    }
  }

  /** Two ascending sequences with the same elements (with multiplicity) are equal. */
  lemma {:induction false} SortedUnique(a: seq<real>, b: seq<real>)
    requires Ascending(a) && Ascending(b)
    requires multiset(a) == multiset(b)
    ensures a == b
    decreases |a|
  {
    SameLength(a, b);
    if |a| > 0 {
      HeadsAgree(a, b);
      SortedUnique(a[1..], b[1..]);
      assert a == [a[0]] + a[1..];
      assert b == [b[0]] + b[1..];
    }
  }

  lemma SameLength(a: seq<real>, b: seq<real>)
    requires multiset(a) == multiset(b)
    ensures |a| == |b|
  {
    assert |a| == |multiset(a)| == |multiset(b)| == |b|;
  }

  /** Equal heads, and the tails are again ascending with equal elements. */
  lemma HeadsAgree(a: seq<real>, b: seq<real>)
    requires |a| > 0 && |a| == |b|
    requires Ascending(a) && Ascending(b)
    requires multiset(a) == multiset(b)
    ensures a[0] == b[0]
    ensures Ascending(a[1..]) && Ascending(b[1..])
    ensures multiset(a[1..]) == multiset(b[1..])
  {
    assert a[0] in multiset(a) && b[0] in multiset(b);
    SortedHeadIsMin(a, b[0]);
    SortedHeadIsMin(b, a[0]);
    TailMultiset(a);
    TailMultiset(b);
    AscendingTail(a);
    AscendingTail(b);
  }

  lemma TailMultiset(a: seq<real>)
    requires |a| > 0
    ensures multiset(a[1..]) == multiset(a) - multiset{a[0]}
  {
    assert a == [a[0]] + a[1..];
  }

  /** Sorting does not depend on the order of its input. */
  lemma SortRealsPermutationInvariant(xs: seq<real>, ys: seq<real>)
    requires multiset(xs) == multiset(ys)
    ensures SortReals(xs) == SortReals(ys)
  {
    SortedUnique(SortReals(xs), SortReals(ys));
  }
}

=== FILE: stats.dfy ===
/**
 * Series utilities of `misc.ts`: the nearest-rank quantile `qtile` and the trailing
 * moving average `movavg`.
 */
module Stats {
  import opened Wrappers
  import opened StableSort
  import opened Reals

  function Max(a: int, b: int): int { if a >= b then a else b }

  /** Sum of a series, accumulated from the left like the source's `s += xs[j]`. */
  function Sum(s: seq<real>): real {
    if |s| == 0 then 0.0 else Sum(s[..|s| - 1]) + s[|s| - 1]
  }

  function Mean(s: seq<real>): real
    requires |s| > 0
  {
    Sum(s) / (|s| as real)
  }

  function SeqMin(s: seq<real>): (m: real)
    requires |s| > 0
    ensures forall i :: 0 <= i < |s| ==> m <= s[i]
    ensures exists i :: 0 <= i < |s| && m == s[i]
  {
    if |s| == 1 then s[0]
    else
      var m := SeqMin(s[1..]);
      assert forall i :: 1 <= i < |s| ==> s[i] == s[1..][i - 1];
      if s[0] <= m then s[0] else m
  }

  function SeqMax(s: seq<real>): (m: real)
    requires |s| > 0
    ensures forall i :: 0 <= i < |s| ==> s[i] <= m
    ensures exists i :: 0 <= i < |s| && m == s[i]
  {
    if |s| == 1 then s[0]
    else
      var m := SeqMax(s[1..]);
      assert forall i :: 1 <= i < |s| ==> s[i] == s[1..][i - 1];
      if s[0] >= m then s[0] else m
  }

  // ------------------------------------------------------------------ qtile

  /** Index `floor((n - 1) * q)` into the sorted copy (may fall outside it). */
  function QtileIndex(n: nat, q: real): int {
    ((n - 1) as real * q).Floor
  }

  /**
   * `qtile(xs, q)`: the element at sorted rank `floor((n - 1) * q)`; `None` where the
   * source reads past the sorted array and gets `undefined` (empty input, q outside [0, 1]).
   */
  function Qtile(xs: seq<real>, q: real): (r: Option<real>)
    ensures r.Some? <==> 0 <= QtileIndex(|xs|, q) < |xs|
    ensures r.Some? ==> r.value in multiset(xs)
  {
    var a := SortReals(xs);
    var i := QtileIndex(|a|, q);
    if 0 <= i < |a| then
      assert a[i] in multiset(a);
      Some(a[i])
    else None
  }

  /** For a non-empty series and q in [0, 1] the quantile is always defined. */
  lemma QtileDefined(xs: seq<real>, q: real)
    requires |xs| > 0 && 0.0 <= q <= 1.0
    ensures Qtile(xs, q).Some?
  {
    QtileIndexInRange(|xs|, q);
  }

  /** For n ≥ 1 and q in [0, 1] the rank floor((n - 1) q) is a valid index. */
  lemma QtileIndexInRange(n: nat, q: real)
    requires n > 0 && 0.0 <= q <= 1.0
    ensures 0 <= QtileIndex(n, q) < n
  {
    var m := (n - 1) as real;
    MulNonNeg(m, q);
    MulNonNeg(m, 1.0 - q);
    assert m - m * q == m * (1.0 - q);
    assert (m * q).Floor <= n - 1;
  }

  /** q = 0 selects the minimum. */
  lemma QtileZeroIsMin(xs: seq<real>)
    requires |xs| > 0
    ensures Qtile(xs, 0.0).Some?
    ensures forall i :: 0 <= i < |xs| ==> Qtile(xs, 0.0).value <= xs[i]
  {
    var a := SortReals(xs);
    forall i | 0 <= i < |xs| ensures a[0] <= xs[i] {
      assert xs[i] in multiset(a);
    }
  }

  /** q = 1 selects the maximum. */
  lemma QtileOneIsMax(xs: seq<real>)
    requires |xs| > 0
    ensures Qtile(xs, 1.0).Some?
    ensures forall i :: 0 <= i < |xs| ==> xs[i] <= Qtile(xs, 1.0).value
  {
    var a := SortReals(xs);
    assert QtileIndex(|xs|, 1.0) == |xs| - 1;
    forall i | 0 <= i < |xs| ensures xs[i] <= a[|a| - 1] {
      assert xs[i] in multiset(a);
    }
  }

  /** The quantile does not depend on the order of the series. */
  lemma QtilePermutationInvariant(xs: seq<real>, ys: seq<real>, q: real)
    requires multiset(xs) == multiset(ys)
    ensures Qtile(xs, q) == Qtile(ys, q)
  {
    SortRealsPermutationInvariant(xs, ys);
    assert |xs| == |multiset(xs)| == |ys|;
  }

  /** A larger q never selects a smaller value. */
  lemma QtileMonotone(xs: seq<real>, q1: real, q2: real)
    requires |xs| > 0 && 0.0 <= q1 <= q2 <= 1.0
    ensures Qtile(xs, q1).Some? && Qtile(xs, q2).Some?
    ensures Qtile(xs, q1).value <= Qtile(xs, q2).value
  {
    QtileDefined(xs, q1);
    QtileDefined(xs, q2);
    IndexMonotone(|xs|, q1, q2);
    var a := SortReals(xs);
    var i1 := QtileIndex(|xs|, q1);
    var i2 := QtileIndex(|xs|, q2);
    assert Qtile(xs, q1) == Some(a[i1]);
    assert Qtile(xs, q2) == Some(a[i2]);
    if i1 < i2 {
      assert a[i1] <= a[i2];
    }
  }

  lemma IndexMonotone(n: nat, q1: real, q2: real)
    requires n > 0 && q1 <= q2
    ensures QtileIndex(n, q1) <= QtileIndex(n, q2)
  {
    var m := (n - 1) as real;
    var d := q2 - q1;
    assert m >= 0.0 && d >= 0.0;
    assert m * d >= 0.0;
    assert m * q2 == m * q1 + m * d;
    FloorMonotone(m * q1, m * q2);
  }

  lemma FloorMonotone(x: real, y: real)
    requires x <= y
    ensures x.Floor <= y.Floor
  {
    assert (x.Floor as real) <= x;
    assert y < (y.Floor as real) + 1.0;
  }

  /** Worked case: the 0.3-quantile of [5, 1, 3, 2, 4] is 2. */
  lemma QtileExample(xs: seq<real>)
    requires xs == [5.0, 1.0, 3.0, 2.0, 4.0]
    ensures Qtile(xs, 0.3) == Some(2.0)
  {
    var sorted := [1.0, 2.0, 3.0, 4.0, 5.0];
    ExampleSameElements(xs, sorted);
    ExampleIndex();
    QtileOfSorted(xs, sorted, 0.3);
  }

  /** The quantile can be read off any ascending arrangement of the same elements. */
  lemma QtileOfSorted(xs: seq<real>, sorted: seq<real>, q: real)
    requires multiset(xs) == multiset(sorted)
    requires forall i, j :: 0 <= i < j < |sorted| ==> sorted[i] <= sorted[j]
    ensures |sorted| == |xs|
    ensures Qtile(xs, q) == if 0 <= QtileIndex(|xs|, q) < |xs| then Some(sorted[QtileIndex(|xs|, q)]) else None
  {
    assert |xs| == |multiset(xs)| == |sorted|;
    SortedUnique(SortReals(xs), sorted);
  }

  lemma ExampleSameElements(xs: seq<real>, sorted: seq<real>)
    requires xs == [5.0, 1.0, 3.0, 2.0, 4.0] && sorted == [1.0, 2.0, 3.0, 4.0, 5.0]
    ensures multiset(xs) == multiset(sorted)
  {
    assert multiset(xs) == multiset{5.0, 1.0, 3.0, 2.0, 4.0};
    assert multiset(sorted) == multiset{1.0, 2.0, 3.0, 4.0, 5.0};
  }

  lemma ExampleIndex()
    ensures QtileIndex(5, 0.3) == 1
  {
    assert (4 as real) * 0.3 == 1.2;
    assert 1.0 <= 1.2 < 2.0;
  }

  // ------------------------------------------------------------------ movavg

  /**
   * The trailing window of index `i`: `xs[max(0, i - w + 1) ..= i]`, taking a width below 1
   * as 1 (for such widths `movavg` returns the series itself).
   */
  function Window(xs: seq<real>, w: int, i: int): (win: seq<real>)
    requires 0 <= i < |xs|
    ensures 0 < |win| <= i + 1
    ensures win[|win| - 1] == xs[i]
  {
    xs[WindowStart(w, i)..i + 1]
  }

  function WindowStart(w: int, i: int): (lo: int)
    requires 0 <= i
    ensures 0 <= lo <= i
  {
    Max(0, i - Max(1, w) + 1)
  }

  /**
   * Reference definition of `movavg(xs, w)`: the input itself for `w <= 1`, otherwise
   * the mean of each index's trailing window (shorter at the start, no look-ahead).
   */
  function MovAvg(xs: seq<real>, w: int): (out: seq<real>)
    ensures |out| == |xs|
  {
    if w <= 1 then xs
    else seq(|xs|, i requires 0 <= i < |xs| => Mean(Window(xs, w, i)))
  }

  lemma SumSnoc(xs: seq<real>, lo: int, hi: int)
    requires 0 <= lo <= hi < |xs|
    ensures Sum(xs[lo..hi + 1]) == Sum(xs[lo..hi]) + xs[hi]
  {
    assert xs[lo..hi + 1][..hi - lo] == xs[lo..hi];
  }

  /** The source's nested loop computes the reference moving average. */
  method ComputeMovAvg(xs: seq<real>, w: int) returns (out: seq<real>)
    ensures out == MovAvg(xs, w)
  {
    if w <= 1 {
      return xs;
    }
    out := [];
    var i := 0;
    while i < |xs|
      invariant 0 <= i <= |xs|
      invariant |out| == i
      invariant forall k :: 0 <= k < i ==> out[k] == Mean(Window(xs, w, k))
    {
      var lo := WindowStart(w, i);
      var s := 0.0;
      var c := 0;
      var k := -(w - 1);
      while k <= 0
        invariant -(w - 1) <= k <= 1
        invariant lo <= Max(0, i + k) <= i + 1
        invariant c == Max(0, i + k) - lo
        invariant s == Sum(xs[lo..Max(0, i + k)])
      {
        var j := i + k;
        if j >= 0 {
          SumSnoc(xs, lo, j);
          s := s + xs[j];
          c := c + 1;
        }
        k := k + 1;
      }
      assert c == |Window(xs, w, i)|;
      out := out + [s / (Max(1, c) as real)];
      i := i + 1;
    }
  }

  lemma {:induction false} SumBounds(s: seq<real>, lo: real, hi: real)
    requires forall k :: 0 <= k < |s| ==> lo <= s[k] <= hi
    ensures (|s| as real) * lo <= Sum(s) <= (|s| as real) * hi
    decreases |s|
  {
    if |s| > 0 {
      SumBounds(s[..|s| - 1], lo, hi);
      var n := |s| as real;
      assert n * lo == (n - 1.0) * lo + lo;
      assert n * hi == (n - 1.0) * hi + hi;
    }
  }

  /** A mean lies between any lower and upper bound of its elements. */
  lemma MeanBounds(s: seq<real>, lo: real, hi: real)
    requires |s| > 0
    requires forall k :: 0 <= k < |s| ==> lo <= s[k] <= hi
    ensures lo <= Mean(s) <= hi
  {
    SumBounds(s, lo, hi);
    var n := |s| as real;
    assert Sum(s) / n <= hi by {
      assert Sum(s) <= n * hi;
    }
    assert lo <= Sum(s) / n by {
      assert n * lo <= Sum(s);
    }
  }

  /** Each average lies between the minimum and maximum of its window. */
  lemma MovAvgWithinWindow(xs: seq<real>, w: int, i: int)
    requires 0 <= i < |xs|
    ensures SeqMin(Window(xs, w, i)) <= MovAvg(xs, w)[i] <= SeqMax(Window(xs, w, i))
  {
    var win := Window(xs, w, i);
    if w > 1 {
      MeanBounds(win, SeqMin(win), SeqMax(win));
    }
  }

  /** A series inside [lo, hi] stays inside [lo, hi] after smoothing. */
  lemma MovAvgPreservesBounds(xs: seq<real>, w: int, lo: real, hi: real)
    requires forall k :: 0 <= k < |xs| ==> lo <= xs[k] <= hi
    ensures forall i :: 0 <= i < |xs| ==> lo <= MovAvg(xs, w)[i] <= hi
  {
    forall i | 0 <= i < |xs|
      ensures lo <= MovAvg(xs, w)[i] <= hi
    {
      if w > 1 {
        var win := Window(xs, w, i);
        assert forall k :: 0 <= k < |win| ==> win[k] == xs[WindowStart(w, i) + k];
        MeanBounds(win, lo, hi);
      }
    }
  }

  /** The first average is the first sample: its window holds only that sample. */
  lemma MovAvgFirst(xs: seq<real>, w: int)
    requires |xs| > 0
    ensures MovAvg(xs, w)[0] == xs[0]
  {
    if w > 1 {
      var win := Window(xs, w, 0);
      assert win == [xs[0]];
      assert Sum(win) == Sum([]) + xs[0];
    }
  }

  /** With width 2 every average after the first is the mean of a sample and its predecessor. */
  lemma PairMean(xs: seq<real>, i: int)
    requires 1 <= i < |xs|
    ensures MovAvg(xs, 2)[i] == (xs[i - 1] + xs[i]) / 2.0
  {
    var win := Window(xs, 2, i);
    assert win == [xs[i - 1], xs[i]];
    assert win[..1] == [xs[i - 1]];
    assert [xs[i - 1]][..0] == [];
    assert Sum([xs[i - 1]]) == xs[i - 1];
    assert Sum(win) == Sum(win[..1]) + xs[i];
  }

  /** Worked case: movavg([1, 2, 3, 4], 2) = [1, 1.5, 2.5, 3.5]. */
  lemma MovAvgExample()
    ensures MovAvg([1.0, 2.0, 3.0, 4.0], 2) == [1.0, 1.5, 2.5, 3.5]
  {
    var xs := [1.0, 2.0, 3.0, 4.0];
    var out := MovAvg(xs, 2);
    MovAvgFirst(xs, 2);
    PairMean(xs, 1);
    PairMean(xs, 2);
    PairMean(xs, 3);
    assert out == [out[0], out[1], out[2], out[3]];
  }
}

=== FILE: text.dfy ===
/**
 * The few JavaScript string operations the dashboard relies on: `trim`, ASCII
 * `toLowerCase`, `includes` and `join`.
 */
module Text {

  /**
   * JavaScript's WhiteSpace and LineTerminator code points, the characters
   * `String.prototype.trim` removes.
   */
  predicate IsJsWhitespace(c: char) {
    var n := c as int;
    n == 0x09 || n == 0x0A || n == 0x0B || n == 0x0C || n == 0x0D || n == 0x20
    || n == 0xA0 || n == 0x1680 || (0x2000 <= n <= 0x200A)
    || n == 0x2028 || n == 0x2029 || n == 0x202F || n == 0x205F || n == 0x3000
    || n == 0xFEFF
  }

  /** Index of the first non-whitespace character (or `|s|`). */
  function ContentStart(s: string): (k: nat)
    ensures k <= |s|
    ensures forall i :: 0 <= i < k ==> IsJsWhitespace(s[i])
    ensures k < |s| ==> !IsJsWhitespace(s[k])
  {
    if |s| == 0 || !IsJsWhitespace(s[0]) then 0
    else 1 + ContentStart(s[1..])
  }

  /** One past the index of the last non-whitespace character (or 0). */
  function ContentEnd(s: string): (k: nat)
    ensures k <= |s|
    ensures forall i :: k <= i < |s| ==> IsJsWhitespace(s[i])
    ensures k > 0 ==> !IsJsWhitespace(s[k - 1])
  {
    if |s| == 0 || !IsJsWhitespace(s[|s| - 1]) then |s|
    else ContentEnd(s[..|s| - 1])
  }

  /** `s.trim()`: `s` without its leading and trailing whitespace. */
  function Trim(s: string): (r: string)
    ensures ContentStart(s) + |r| <= |s|
    ensures |r| > 0 ==> !IsJsWhitespace(r[0]) && !IsJsWhitespace(r[|r| - 1])
    ensures r == s[ContentStart(s)..ContentStart(s) + |r|]
    ensures forall i :: 0 <= i < ContentStart(s) ==> IsJsWhitespace(s[i])
    ensures forall i :: ContentStart(s) + |r| <= i < |s| ==> IsJsWhitespace(s[i])
  {
    var c := ContentStart(s);
    var t := s[c..];
    var e := ContentEnd(t);
    assert t[..e] == s[c..c + e];
    assert forall i :: c + e <= i < |s| ==> IsJsWhitespace(s[i]) by {
      forall i | c + e <= i < |s|
        ensures IsJsWhitespace(s[i])
      {
        assert s[i] == t[i - c];
      }
    }
    t[..e]
  }

  /** A string trims to empty exactly when it consists of whitespace only. */
  lemma TrimEmptyIffBlank(s: string)
    ensures Trim(s) == [] <==> forall i :: 0 <= i < |s| ==> IsJsWhitespace(s[i])
  {
    var r := Trim(s);
    if r != [] {
      assert s[ContentStart(s)] == r[0];
    }
  }

  /** Trimming is idempotent. */
  lemma TrimIdempotent(s: string)
    ensures Trim(Trim(s)) == Trim(s)
  {
    var r := Trim(s);
    if |r| > 0 {
      assert ContentStart(r) == 0;
      assert ContentEnd(r) == |r|;
    }
  }

  /** A string whose first and last characters are not whitespace is its own trim. */
  lemma TrimNoPadding(s: string)
    requires |s| > 0 && !IsJsWhitespace(s[0]) && !IsJsWhitespace(s[|s| - 1])
    ensures Trim(s) == s
  {
  }

  function LowerChar(c: char): (r: char)
    ensures 'A' <= c <= 'Z' ==> 'a' <= r <= 'z'
    ensures !('A' <= c <= 'Z') ==> r == c
  {
    if 'A' <= c <= 'Z' then (c as int + 32) as char else c
  }

  /** `s.toLowerCase()` restricted to the ASCII letters. */
  function ToLower(s: string): (r: string)
    ensures |r| == |s|
    ensures forall i :: 0 <= i < |s| ==> r[i] == LowerChar(s[i])
  {
    seq(|s|, i requires 0 <= i < |s| => LowerChar(s[i]))
  }

  /** `t` occurs in `s` starting at index `i`. */
  ghost predicate OccursAt(s: string, t: string, i: int) {
    0 <= i && i + |t| <= |s| && s[i..i + |t|] == t
  }

  /** `s.includes(t)`: `t` occurs somewhere in `s`. */
  function Includes(s: string, t: string): (b: bool)
    ensures b <==> exists i :: OccursAt(s, t, i)
    decreases |s|
  {
    if |t| <= |s| && s[..|t|] == t then
      assert OccursAt(s, t, 0);
      true
    else if |s| == 0 then
      assert forall i :: !OccursAt(s, t, i);
      false
    else
      var r := Includes(s[1..], t);
      assert r ==> exists i :: OccursAt(s, t, i) by {
        if r {
          var j :| OccursAt(s[1..], t, j);
          assert s[j + 1..j + 1 + |t|] == s[1..][j..j + |t|];
          assert OccursAt(s, t, j + 1);
        }
      }
      assert !r ==> forall i :: !OccursAt(s, t, i) by {
        if !r {
          forall i | OccursAt(s, t, i) ensures false {
            assert i != 0;
            assert s[1..][i - 1..i - 1 + |t|] == s[i..i + |t|];
            assert OccursAt(s[1..], t, i - 1);
          }
        }
      }
      r
  }

  /** Joins `lines` with `sep` between consecutive elements (`Array.prototype.join`). */
  function Join(lines: seq<string>, sep: string): (r: string)
    ensures |lines| == 0 ==> r == []
    ensures |lines| > 0 ==> lines[0] <= r
  {
    if |lines| == 0 then []
    else if |lines| == 1 then lines[0]
    else lines[0] + sep + Join(lines[1..], sep)
  }
}

=== FILE: types.dfy ===
/**
 * The records the dashboard works on: devices, cameras and alerts, with the closed
 * string unions of the source as enumerations. Coordinates, battery voltage, RSSI and
 * confidence are reals; an alert's ISO timestamp is represented by its value in
 * milliseconds since the epoch.
 */
module Types {
  import opened Wrappers

  datatype DeviceType = Collar | Relay | Gateway | Tower | FixedNode | AerialNode

  datatype Status = Online | Offline | Inactive

  datatype Severity = P0 | P1 | P2 | Info

  datatype Device = Device(
    alias: string,
    deviceId: string,
    dtype: Option<DeviceType>,
    status: Status,
    batteryV: Option<real>,
    ranch: Option<string>,
    lat: real,
    lon: real,
    fwVersion: Option<string>,
    rssi: Option<real>)

  datatype Camera = Camera(
    id: string,
    name: string,
    lat: real,
    lon: real,
    radiusM: real,
    rssi: Option<real>,
    feedUrl: Option<string>,
    note: Option<string>)

  datatype Alert = Alert(
    id: string,
    severity: Severity,
    deviceId: string,
    alias: string,
    kind: string,
    confidence: real,
    ts: int,
    acked: bool)

  /** The documented range of an alert's confidence (not enforced by the type). */
  ghost predicate ConfidenceInRange(a: Alert) {
    0.0 <= a.confidence <= 1.0
  }

  /** A device's type, where an absent type means a collar (`d.type || 'collar'`). */
  function TypeOf(d: Device): (t: DeviceType)
    ensures d.dtype.None? ==> t == Collar
    ensures d.dtype.Some? ==> t == d.dtype.value
  {
    d.dtype.GetOr(Collar)
  }

  function DeviceTypeName(t: DeviceType): string {
    match t
    case Collar => "collar"
    case Relay => "relay"
    case Gateway => "gateway"
    case Tower => "tower"
    case FixedNode => "fixed_node"
    case AerialNode => "aerial_node"
  }

  /** Reads a device-type string; anything outside the six names is rejected. */
  function ParseDeviceType(s: string): (r: Option<DeviceType>)
    ensures r.Some? ==> DeviceTypeName(r.value) == s
  {
    if s == "collar" then Some(Collar)
    else if s == "relay" then Some(Relay)
    else if s == "gateway" then Some(Gateway)
    else if s == "tower" then Some(Tower)
    else if s == "fixed_node" then Some(FixedNode)
    else if s == "aerial_node" then Some(AerialNode)
    else None
  }

  /** The device-type names form a closed set of six distinct strings. */
  lemma DeviceTypeNamesRoundTrip(t: DeviceType)
    ensures ParseDeviceType(DeviceTypeName(t)) == Some(t)
  {
  }

  function SeverityName(s: Severity): string {
    match s
    case P0 => "P0"
    case P1 => "P1"
    case P2 => "P2"
    case Info => "INFO"
  }

  /** Reads a severity string; anything outside the four names is rejected. */
  function ParseSeverity(s: string): (r: Option<Severity>)
    ensures r.Some? ==> SeverityName(r.value) == s
  {
    if s == "P0" then Some(P0)
    else if s == "P1" then Some(P1)
    else if s == "P2" then Some(P2)
    else if s == "INFO" then Some(Info)
    else None
  }

  lemma SeverityNamesRoundTrip(s: Severity)
    ensures ParseSeverity(SeverityName(s)) == Some(s)
  {
  }

  function StatusName(s: Status): string {
    match s
    case Online => "online"
    case Offline => "offline"
    case Inactive => "inactive"
  }
}

=== FILE: wrappers.dfy ===
/** Optional values: the model's stand-in for JavaScript's `undefined` / `null`. */
module Wrappers {

  datatype Option<+T> = None | Some(value: T) {

    /** The value, or `default` when absent (JavaScript's `x ?? default`). */
    function GetOr(default: T): T {
      match this
      case Some(v) => v
      case None => default
    }
  }
}
